=== FILE: README.md ===
# Spotify thumbnail downloader and image search, modelled in Dafny

This project models the bookkeeping of a tool that downloads the cover-art thumbnails
of a user's Spotify songs, and of the small search service that indexes them.

- **Thumbnail path scheme.** A song's thumbnail goes to
  `./images/<urlsafe-base64(utf8(name))>@<id>.jpg` (modules `Utf8`, `Base64`, `Download`).
  Both encoders are written out, together with their decoders. This makes the claim
  "distinct `(name, id)` pairs give distinct files" a theorem about the path format.
- **Download of one thumbnail** (`download_image`). It skips image-less songs, fetches
  only the first image URL, writes the body and then moves the bar (`Download`).
- **Converters** from playlist entries and saved tracks to the `Song` record. A track
  without an id makes them panic (`Songs`).
- **`process_items` pipeline** (`Paging`, `Pipeline`):
  - The pages are walked with limit 50 at offsets 0, 50, 100, …, and the walk ends only
    at a page without `next`.
  - Every item is converted, each converted song is dispatched as a download task, and
    the tasks are then drained in spawn order.
- **Library entry points** (`Library`): liked songs, one playlist, and all playlists in
  sequence.
- **Legacy binary** in `src/main.rs` (`Legacy`). It collects the liked songs into a set
  with structural equality, then downloads them one by one.
- **Command-line dispatch** in `cli/src/main.rs` (`Cli`).
- **Search service bookkeeping** in `app.py` (`Ordering`, `ImageSearch`):
  - the image-file filter and Python's `sorted`;
  - `collate_fn` and the batch loop of `precompute_embeddings`, with embeddings reduced
    to row counts;
  - the reuse decision of `load_embeddings`.

A Rust call either returns `Ok`, returns `Err` with an `anyhow` context chain, or panics.
`Outcomes.Exec` keeps all three apart.

Some inputs are parameters of the model:
- the network: `fetch`, `send` and the playlist `lookup`;
- the file system: `store`, the directory listing and the cache files;
- the spawned tasks' results: `task`, by spawn position and song; in "all playlists"
  mode `taskFor` gives each playlist's run its own;
- image decoding: `load`;
- `PlaylistId::from_id`: `parseId`.

The page source is an arbitrary function. The walk ends at the first page whose request
fails, that has no successor, or that holds an item whose conversion panics
(`Paging.Halts`, with the panicking items given by `Pipeline.PanicsOf`). A source that
offers a next page forever, with no failure and no panicking item, keeps the original
walking forever. So every walk takes a ghost page index `stop` by which the walk is
known to end. The model walks exactly up to the first such page (`Paging.LastPage`),
whatever `stop` is. A source that never ends but holds a panicking item still ends the
walk (`Pipeline.PanicEndsEndlessSource`).
Only sources the program actually walks need such an index. A playlist whose lookup
fails, and every listing entry after the first failing one, need none.

Behaviours of the code worth knowing:
- **HTTP status.** The HTTP status of a thumbnail response plays no part: an error page is
  written as the thumbnail (`Download.StatusIgnored`). A 4xx is not a download failure.
- **Missing track id.** A track without an id panics the whole run in both converters and
  in the legacy collector. The converter's own `// FIXME: If its local, id wont exist`
  (spotify-api/src/lib.rs:251) marks this as a known gap.
- **Playlist id check.** The CLI authenticates before it checks the playlist id, so an
  invalid id is reported only after the network round trip of authentication.
- **Selectors.** Giving both selectors hits `unreachable!()` and no subcommand hits
  `todo!()`; both are panics, not error exits.
- **Concurrency.** The library spawns one task per song with no bound on concurrency.
- **Failures that abort a run.** In "all playlists" mode, a listing error or any playlist
  whose run fails (a page error, a join failure, a panic) ends the whole run. Only a
  failed lookup of a playlist is skipped.

## Model

| member | source | states |
|---|---|---|
| Outcomes.WithContext | spotify-api/src/lib.rs:109-111 | `.context(msg)` keeps `Ok` unchanged and puts `msg` in front of an error's chain |
| Utf8.EncodeChar | spotify-api/src/lib.rs:39 | a character takes 1 to 4 bytes, one exactly for ASCII, and every byte after the first is a continuation byte |
| Utf8.Encode | spotify-api/src/lib.rs:39 | `name.as_bytes()` has between one and four bytes per character |
| Utf8.DecodeEncodeChar | spotify-api/src/lib.rs:39 | decoding the bytes of one character, whatever follows, gives the character back and its byte length |
| Utf8.DecodeEncode | spotify-api/src/lib.rs:39 | UTF-8 decoding inverts `as_bytes` for every string |
| Utf8.EncodeInjective | spotify-api/src/lib.rs:39 | two names have the same UTF-8 bytes exactly when they are equal |
| Base64.Symbol | spotify-api/src/lib.rs:39 | every 6-bit value maps into the URL-safe alphabet `A-Z a-z 0-9 - _` |
| Base64.ValueSymbol | spotify-api/src/lib.rs:39 | reading a symbol back gives its 6-bit value |
| Base64.EncodeGroup | spotify-api/src/lib.rs:39 | a group of 1-3 bytes becomes 4 characters: the first n+1 from the alphabet, the rest `=` |
| Base64.Encode | spotify-api/src/lib.rs:39 | the `URL_SAFE` engine's output has 4 characters per started group of 3 bytes |
| Base64.EncodeAlphabet | spotify-api/src/lib.rs:39 | the output is alphabet characters followed by exactly the padding count of `=` (0, 2 or 1 for n mod 3 = 0, 1, 2) |
| Base64.DecodeGroup | spotify-api/src/lib.rs:39 | a decoded 4-character group holds 1 to 3 bytes |
| Base64.DecodeEncodeGroup | spotify-api/src/lib.rs:39 | decoding an encoded group gives the group back |
| Base64.DecodeEncode | spotify-api/src/lib.rs:39 | decoding inverts the padded URL-safe encoding for every byte string |
| Base64.EncodeInjective | spotify-api/src/lib.rs:39 | different byte strings have different encodings |
| Songs.ArtistNames | spotify-api/src/lib.rs:238-242 | the artist names, one per artist, in source order |
| Songs.ImageUrls | spotify-api/src/lib.rs:244-249 | the album image URLs, one per image, in source order |
| Songs.SongOf | spotify-api/src/lib.rs:236-265 | the Song holds the track's id, name, artist names and album image URLs |
| Songs.TrackToSong | spotify-api/src/lib.rs:251-265 | a track panics exactly when it has no id, never returns `Err`, and otherwise yields its Song |
| Songs.FromPlaylistItem | spotify-api/src/lib.rs:234-269 | `Err` exactly for an entry that is not a track, a panic exactly for a track without an id, otherwise that track's Song |
| Songs.FromSavedTrack | spotify-api/src/lib.rs:274-309 | never `Err`; panics exactly when the track has no id; an `Ok` holds the song built from the track |
| Songs.ConvertersAgree | spotify-api/src/lib.rs:231-310 | a playlist entry holding a track converts exactly as the saved track does |
| Download.EncodedName | spotify-api/src/lib.rs:39 | the file-name part is the padded URL-safe Base64 of the name's UTF-8 bytes |
| Download.OutputPath | spotify-api/src/lib.rs:41 | the thumbnail path is `./images/`, the encoded name, `@`, the id and `.jpg` |
| Download.EncodedNameShape | spotify-api/src/lib.rs:39-41 | the encoded name has length 4·⌈bytes/3⌉ and contains only alphabet characters and `=`, hence no `/` and no `@` |
| Download.IndexOf | spotify-api/src/lib.rs:41 | finds the first occurrence of a character, or reports that there is none |
| Download.ParsePathStem | spotify-api/src/lib.rs:41 | a path under `./images/` ending in `.jpg` parses as its middle part |
| Download.ParseOutputPath | spotify-api/src/lib.rs:41 | the output path splits at its first `@` and decodes back to exactly `(name, id)` |
| Download.OutputPathInjective | spotify-api/src/lib.rs:41 | distinct `(name, id)` pairs get distinct files |
| Download.DownloadImage | spotify-api/src/lib.rs:34-59 | no images: `Ok` with no request, no write and no bar step. Otherwise only `images[0]` is requested. It fails exactly when the GET, the body read or the write fails. The bar moves once, exactly when the file was written; the file written is exactly `OutputPath(name, id)` and holds the received body |
| Download.StatusIgnored | spotify-api/src/lib.rs:49-50 | two responses with the same body give the same download, whatever their statuses |
| Paging.FirstHaltFrom | spotify-api/src/lib.rs:108-133 | the first page from k on that fails, has no `next`, or holds an item that ends the walk |
| Paging.LastPage | spotify-api/src/lib.rs:108-133 | the walk's last page fails, has no `next` or holds an item that ends the walk; every earlier page was delivered with a `next` and held no such item |
| Paging.Requests | spotify-api/src/lib.rs:105-132 | the k-th request asks for limit 50 at offset 50·k |
| Paging.RequestsNext | spotify-api/src/lib.rs:132 | each step of the walk adds the request for the next offset |
| Paging.ItemsBeforePrefix | spotify-api/src/lib.rs:116 | the items of earlier pages come first, in page order |
| Paging.EmptyPageDoesNotStop | spotify-api/src/lib.rs:129-131 | a page with no items but a `next` never ends the walk, and adds no items |
| Pipeline.Dispatched | spotify-api/src/lib.rs:116-125 | at most one task per item |
| Pipeline.DispatchedInOrder | spotify-api/src/lib.rs:116-125 | the k-th task is for the song of the k-th item whose conversion returns `Ok`: tasks follow item order, and an item gets a task exactly when its conversion returns `Ok` |
| Pipeline.DispatchedCount | spotify-api/src/lib.rs:116-125 | there are as many tasks as items whose conversion returns `Ok` |
| Pipeline.TaskErrors | spotify-api/src/lib.rs:137-141 | the errors of the tasks that finished with `Err`, in spawn order |
| Pipeline.Results | spotify-api/src/lib.rs:137-138 | awaiting the i-th spawned task yields the result given for spawn position i and its song |
| Pipeline.Drain | spotify-api/src/lib.rs:137-144 | the first task that cannot be joined fails the drain; otherwise it is `Ok` |
| Pipeline.Walk | spotify-api/src/lib.rs:108-133 | the walk ends with the first conversion panic among the received items, else with the last request's error, else it completes |
| Pipeline.Outcome | spotify-api/src/lib.rs:79-145 | a conversion panic is the result; a page error gets the context "Failed to fetch page"; a completed walk gives the drain's result |
| Pipeline.OutcomeOk | spotify-api/src/lib.rs:108-144 | a run ends with `Ok` exactly when no received item panics, the last request was delivered, and every task can be joined |
| Pipeline.DownloadTask | spotify-api/src/lib.rs:119 | each spawned task resolves to the result of `download_image` for its song |
| Pipeline.DispatchedMembers | spotify-api/src/lib.rs:116-125 | a song is dispatched exactly when some item converts to it; when every item converts, there is one task per item |
| Pipeline.DispatchedAppend | spotify-api/src/lib.rs:108-133 | dispatching page after page equals dispatching their items together |
| Pipeline.WalkNoPanic | spotify-api/src/lib.rs:108-133 | the walk ends without a panic exactly when no received item panics, and completes exactly when, in addition, the last page was delivered |
| Pipeline.NoneBefore | spotify-api/src/lib.rs:116 | an item that meets a condition in the second page is, in the concatenation, preceded only by items that do not |
| Pipeline.PanicAt | spotify-api/src/lib.rs:116-117 | a panic at item j of page k, after none before it, is the first panic among everything the walk receives |
| Pipeline.WalkPanics | spotify-api/src/lib.rs:116-117 | such a panic ends the walk with its message |
| Pipeline.WalkPageFails | spotify-api/src/lib.rs:109-111 | with no panic, a failed last request ends the walk with its error, and the received items are the earlier pages' |
| Pipeline.WalkCompletes | spotify-api/src/lib.rs:129-131 | with no panic and a delivered last page, the walk completes having received every page up to the last |
| Pipeline.EndsAtLastPage | spotify-api/src/lib.rs:109-131 | the first page that fails, has no `next` or holds a panicking item is the last one requested |
| Pipeline.NoPanicNoEnd | spotify-api/src/lib.rs:116-117 | a page none of whose items panics in conversion does not end the walk by a panic |
| Pipeline.WalkContinues | spotify-api/src/lib.rs:116-132 | a delivered page with a `next` and no panicking item is not the last page, and the walk goes on with its items received |
| Pipeline.PanicEndsEndlessSource | spotify-api/src/lib.rs:116-131 | a source that always offers a `next` still ends the walk at the first page whose first item panics, and the run's result is that panic |
| Pipeline.FirstEndAt | spotify-api/src/lib.rs:116-117 | the first received item that ends the walk is at item j of page k when no item before it ends the walk |
| Pipeline.ConvertPage | spotify-api/src/lib.rs:116-127 | one page: the songs of the items that convert, in order, and one bar step per item; or the first panicking item, with a step for each item before it |
| Pipeline.WalkPages | spotify-api/src/lib.rs:105-133 | the walk's requests are the first m of 50·k, all up to the last page unless a conversion panics; the tasks are the dispatched songs of every received item, and the bar counts every received item |
| Pipeline.ProcessItems | spotify-api/src/lib.rs:79-145 | the run's result is the first conversion panic, else a page error with context "Failed to fetch page" and no task joined, else the drain's result; every task's error is logged in spawn order |
| Pipeline.DrainTasks | spotify-api/src/lib.rs:137-141 | tasks are awaited in spawn order, each task's own error is logged, and the first join failure is returned after exactly the tasks before it |
| Pipeline.DownloadErrorsAreOnlyLogged | spotify-api/src/lib.rs:137-144 | with download tasks, a walk without panic or page error returns `Ok` whatever the downloads did |
| Pipeline.EveryTaskAccountedFor | spotify-api/src/lib.rs:44-58 | the logged task errors, the written thumbnails and the songs without images add up to the number of tasks |
| Library.GetFromLiked | spotify-api/src/lib.rs:203-220 | the saved tracks go through the pipeline with `Song::from`; without a panic, every received item gets a task and a bar step |
| Library.LikedNeverSkips | spotify-api/src/lib.rs:216 | unless the run panics, no saved track is skipped |
| Library.PlaylistOutcome | spotify-api/src/lib.rs:164-200 | a failed lookup gives `Ok` and walks nothing; otherwise the run's result is the pipeline's over the playlist's tracks |
| Library.PlaylistOutcomeOk | spotify-api/src/lib.rs:158-201 | a playlist run is `Ok` exactly when its lookup fails, or when no item panics, the last request was delivered and every task can be joined |
| Library.GetFromPlaylist | spotify-api/src/lib.rs:158-201 | a failed lookup gives `Ok` without any page request, whatever the page source; otherwise the result is the pipeline's over the playlist's tracks |
| Library.VisitEntry | spotify-api/src/lib.rs:150-152 | a listing error is returned as is, an id whose lookup fails gives `Ok`, and any other id runs that playlist |
| Library.AllOutcomeStep | spotify-api/src/lib.rs:147-156 | entry i of the listing is reached; an `Ok` outcome passes on to entry i + 1, and any other outcome is the run's |
| Library.VisitNext | spotify-api/src/lib.rs:150-153 | one turn of the listing loop: an `Ok` came from an id and the run goes on; any other outcome is the run's |
| Library.AllOutcomeOk | spotify-api/src/lib.rs:147-156 | the whole run is `Ok` exactly when every listing entry is an id whose playlist run is `Ok` |
| Library.AllOutcomeFirstFailure | spotify-api/src/lib.rs:150-153 | the first listing error or failing playlist run is the result, and nothing is required of the entries after it |
| Library.GetFromAllPlaylists | spotify-api/src/lib.rs:147-156 | playlists run in listing order, each with its own download tasks, and only the page sources of playlists actually reached must stop. The result is the first listing error or failing playlist run, else `Ok`, and the ids looked up form a prefix of the listing |
| Legacy.CollectOutcome | src/main.rs:57-121 | the collector's result: the first missing id panics, a page error is passed on without context, otherwise the set of every received song |
| Legacy.Convert | src/main.rs:78-106 | an item panics with the `unwrap` message exactly when its track has no id, else yields its Song |
| Legacy.SongSetMembers | src/main.rs:101-106 | a song is in the set exactly when some item gives it |
| Legacy.SongSetAppend | src/main.rs:70-116 | collecting page after page equals collecting their items together |
| Legacy.SongSetSize | src/main.rs:101-106 | the set has at most one song per item |
| Legacy.SongSetShrinks | src/main.rs:101-106 | two items that give the same song leave the set strictly smaller than the number of items |
| Legacy.InsertPage | src/main.rs:78-107 | one page: all its songs inserted and one bar step per item, or the first item without an id, after a step for each item before it |
| Legacy.CollectLiked | src/main.rs:57-121 | requests are 50·k as in the library. The result is a panic at the first missing id, else the page error without context, else the set of every received song. The bar counts every item, and the set is never larger |
| Legacy.CollectFails | src/main.rs:70-73 | a failed request, after pages whose ids are all present, is the last request and its error is the result |
| Legacy.CollectPanics | src/main.rs:78-97 | the first item without an id, after items that all have one, makes the result the `unwrap` panic |
| Legacy.CollectContinues | src/main.rs:111-115 | a delivered page with a `next` and every id present is not the last page, and its items follow the earlier pages' |
| Legacy.CollectCompletes | src/main.rs:111-120 | a delivered page without a `next`, every id present, is the last page, and the result is the set of the songs of every received item |
| Legacy.RepeatCountedTwice | src/main.rs:99-106 | an item received twice makes the bar count exceed the set's size |
| Legacy.Attempt | src/main.rs:42-51 | one download panics with the index message exactly when the song has no images |
| Legacy.AttemptWrites | src/main.rs:42-51 | a successful download wrote the received body to exactly `OutputPath(name, id)`, the song's own path |
| Legacy.DownloadAll | src/main.rs:38-52 | the run is `Ok` exactly when every song's download succeeds. Otherwise it ends with a failing song's panic or error, and every file written belongs to a song downloaded successfully |
| Legacy.Run | src/main.rs:28-54 | a collection failure is the result; otherwise the download loop decides, and a panic means the index message and some song without images |
| Legacy.ImagelessSongPanics | src/main.rs:46 | as written, a song without images panics the run |
| Legacy.GuardedAttempt | spotify-api/src/lib.rs:44-46 | the attempt with the library's empty-image guard |
| Legacy.GuardedAttemptNeverPanics | spotify-api/src/lib.rs:44-59 | with the guard, no download panics, image-less songs give `Ok`, and otherwise it succeeds exactly when the unguarded one does, writing the same file |
| Cli.Selected | cli/src/main.rs:30-56 | neither selector means liked songs, an id alone one playlist, `--playlists` alone all playlists; both is not accepted |
| Cli.Main | cli/src/main.rs:30-58 | no subcommand and both selectors panic before any call. Otherwise authenticate first, then fetch once from the selected source with the checked id, and the fetch's outcome is the program's |
| Cli.InvalidIdStopsBeforeFetch | cli/src/main.rs:42-45 | an id that fails the check gives `Err` with "ID contains invalid characters." after authentication and before any fetch |
| Cli.AcceptedCommandsFetchOnce | cli/src/main.rs:30-58 | an accepted command ends with `Ok` exactly when authentication, the id check and the selected fetch all succeed |
| Ordering.LessEqTotal | app.py:38-44 | any two strings compare |
| Ordering.LessEqTransitive | app.py:38-44 | the string order is transitive |
| Ordering.LessEqAntisymmetric | app.py:38-44 | strings that compare both ways are equal |
| Ordering.Insert | app.py:38-44 | inserting into an ascending list keeps it ascending and adds exactly one element |
| Ordering.Sort | app.py:38-44 | `sorted` returns an ascending arrangement of the same elements |
| Ordering.SortedUnique | app.py:38-44 | there is only one ascending arrangement of given elements, so any stable sort agrees with this one |
| ImageSearch.Lower | app.py:42 | lower-casing keeps the length and lowers each character |
| ImageSearch.ImageNameIgnoresCase | app.py:42 | the extension filter gives the same answer for a name and its lower-cased form |
| ImageSearch.IsImageName | app.py:42 | a name is an image name when, lower-cased, it ends in `.png`, `.jpg` or `.jpeg` |
| ImageSearch.Images | app.py:39-43 | the filter keeps at most every entry |
| ImageSearch.ImagesMembers | app.py:39-43 | the filter keeps each image name as often as it is listed, and nothing else |
| ImageSearch.ImagesCount | app.py:39-43 | the filter keeps every entry exactly when every entry is an image name |
| ImageSearch.ImageFilesShape | app.py:38-47 | `image_files` is ascending and holds exactly the listed image names. `len(dataset)` is the filter's count, at most the listing's length, and equal to it exactly when every entry is an image |
| ImageSearch.ImageFiles | app.py:38-44 | `image_files`: the listed image names, sorted |
| ImageSearch.ImageFilesOrderIndependent | app.py:38-44 | the dataset does not depend on the order in which the directory is listed |
| ImageSearch.GetItem | app.py:49-56 | a sample is the image and its name exactly when the file opens, and `(None, None)` otherwise |
| ImageSearch.Samples | app.py:49-56 | the data loader yields one sample per dataset entry, in order |
| ImageSearch.Keep | app.py:60-67 | the kept samples are at most the batch |
| ImageSearch.KeepMembers | app.py:60-67 | a sample is kept exactly when it is in the batch and has an image |
| ImageSearch.Collate | app.py:60-67 | images and filenames are equally long and aligned, pair i being the i-th sample that loaded, in batch order |
| ImageSearch.Loaded | app.py:49-67 | at most every entry loads |
| ImageSearch.LoadedMembers | app.py:49-67 | an entry is loaded exactly when its image opens |
| ImageSearch.KeepSamples | app.py:49-67 | collating a batch keeps exactly the entries that open, in order, each with its image |
| ImageSearch.LoadedAppend | app.py:101-113 | the names of consecutive batches concatenate to the names of their union |
| ImageSearch.Wrap | app.py:113 | names as the metadata's JSON list holds them, one per name |
| ImageSearch.BatchEnd | app.py:88-91 | a batch has at most 64 entries, and exactly 64 unless it is the last |
| ImageSearch.LoadBatch | app.py:101 | one batch's names are the names of its entries that open, in order |
| ImageSearch.EmbedAll | app.py:95-119 | the recorded filenames are every dataset entry that opens, in order. There is one row per name, and a chunk exists exactly when some row does |
| ImageSearch.Precompute | app.py:85-136 | fails in `torch.cat` exactly when no image opens. Otherwise it records the model, the absolute folder, and the opened names in dataset order, with `image_count` equal to their number |
| ImageSearch.Reuses | app.py:141-154 | both cache files exist, the folder is the recorded one, and the set of entries equals the set of recorded names |
| ImageSearch.LoadEmbeddings | app.py:140-159 | recomputes exactly when a cache file is missing, the folder differs, or the set of all entries differs from the recorded names; otherwise reuses the metadata |
| ImageSearch.ReuseAfterPrecompute | app.py:124-154 | right after a precompute, the next start reuses it exactly when every directory entry is an image name that opens |

## Left out

- Authentication: OAuth, credential loading and the interactive token prompt are foreign
  library code. In the CLI they are the `auth` result. The legacy binary is modelled from
  the point after authentication.
- The HTTP client: its construction (a failing `build()` at spotify-api/src/lib.rs:93),
  the 10-second timeout and the retry middleware. `send` is the GET with retries already
  applied.
- Concurrency: `tokio::spawn` and the scheduling of tasks. A task's result is given by its
  spawn position and its song, so two tasks for the same song can end differently, and a
  join failure is a possible result. A task's side effects are
  modelled by `Pipeline.Written`, not interleaved with the walk.
- Progress bars: rendering, `set_length` from `page.total`, and messages. Only the step
  counts are kept. The `BATCH_SIZE` step of the precompute bar on an empty batch is not
  modelled.
- Paging.Halts: a walk over a source that announces a next page forever, never fails and
  holds no item whose conversion panics does not terminate in the original. Every walk in
  the model requires a page `stop` by which it ends, so that endless run is not modelled.
- Paging.Offset: the offset is an unbounded integer, so a `u32` overflow after 2³²/50
  pages is not modelled.
- Download.DownloadImage: directory creation, file creation and the write are one
  `store` step. A partly written file after a failed write is not modelled.
- ImageSearch.Lower: only ASCII letters are lowered. Python's `str.lower` on other
  characters is not modelled.
- `PlaylistId::from_id` validation: its character rules are foreign library code, kept as
  the `parseId` parameter.
- Songs.FromPlaylistItem: the error message is "Could not convert" without the debug
  rendering of the entry.
- Song records carry only the fields the converters read.
- The CLIP model, torch tensors, embedding values and `embedding_dim`, image decoding,
  the Flask routes, the similarity ranking and the `top_k` slice. These are numeric or
  foreign code; an embedding is represented by its row.
- `load_embeddings` reading a metadata file that is not valid JSON, or that lacks a key.
  The cache is given as already-read metadata.
- `torch.save`, `torch.load`, `json.dump` and the print and log lines.

## Findings

| source | as written | input that shows it | evidently intended | confidence | as-written member | corrected member |
|---|---|---|---|---|---|---|
| src/main.rs:46 | the download loop indexes `song.images[0]` without checking that the list is non-empty | a liked song whose album has no images, e.g. `Song("0", "", [], [])`: the run panics with an index-out-of-bounds | skip songs without images with `Ok`, as `download_image` does at spotify-api/src/lib.rs:44-46 | not executed | Legacy.ImagelessSongPanics | Legacy.GuardedAttemptNeverPanics |

=== FILE: base64.dfy ===
/** Base64 with the URL- and filename-safe alphabet (section 5 of RFC 4648) and `=` padding
    (section 3.2 of RFC 4648): the `base64` crate's `general_purpose::URL_SAFE` engine.

    Every three bytes become four symbols; a final group of one or two bytes becomes two or
    three symbols followed by `==` or `=`. `Decode` is the matching strict decoder.
 */
module Base64 {
  import opened Outcomes
  import opened Utf8

  const Pad: char := '='

  /** The URL-safe alphabet: letters, digits, `-` and `_` (no `+`, no `/`). */
  predicate IsUrlSafe(c: char)
  {
    ('A' <= c <= 'Z') || ('a' <= c <= 'z') || ('0' <= c <= '9') || c == '-' || c == '_'
  }

  /** The symbol for a six-bit value. */
  function Symbol(v: int): (c: char)
    requires 0 <= v < 64
    ensures IsUrlSafe(c)
  {
    if v < 26 then ('A' as int + v) as char
    else if v < 52 then ('a' as int + (v - 26)) as char
    else if v < 62 then ('0' as int + (v - 52)) as char
    else if v == 62 then '-'
    else '_'
  }

  /** The six-bit value of a symbol, or `None` for a character outside the alphabet. */
  function Value(c: char): (r: Option<int>)
    ensures r.Some? ==> 0 <= r.value < 64
  {
    if 'A' <= c <= 'Z' then Some(c as int - 'A' as int)
    else if 'a' <= c <= 'z' then Some(c as int - 'a' as int + 26)
    else if '0' <= c <= '9' then Some(c as int - '0' as int + 52)
    else if c == '-' then Some(62)
    else if c == '_' then Some(63)
    else None
  }

  lemma ValueSymbol(v: int)
    requires 0 <= v < 64
    ensures Value(Symbol(v)) == Some(v)
  {
  }

  /** Number of `=` characters that end the encoding of `n` bytes. */
  function PadCount(n: nat): nat
  {
    (3 - n % 3) % 3
  }

  /** The four characters for a group of one to three bytes; a short group is padded. */
  function EncodeGroup(g: seq<byte>): (q: string)
    requires 1 <= |g| <= 3
    ensures |q| == 4
    ensures forall i :: 0 <= i < 4 ==> (IsUrlSafe(q[i]) <==> i <= |g|)
    ensures forall i :: |g| < i < 4 ==> q[i] == Pad
  {
    var b0 := g[0];
    var b1 := if |g| > 1 then g[1] else 0;
    var b2 := if |g| > 2 then g[2] else 0;
    var c0 := Symbol(b0 / 4);
    var c1 := Symbol((b0 % 4) * 16 + b1 / 16);
    var c2 := if |g| > 1 then Symbol((b1 % 16) * 4 + b2 / 64) else Pad;
    var c3 := if |g| > 2 then Symbol(b2 % 64) else Pad;
    [c0, c1, c2, c3]
  }

  /** Length and padding of the encoding of n bytes, one group at a time. */
  lemma GroupArithmetic(n: nat)
    ensures 1 <= n <= 2 ==> 4 * ((n + 2) / 3) == 4 && PadCount(n) == 3 - n
    ensures n >= 3 ==> 4 * ((n + 2) / 3) == 4 + 4 * ((n - 3 + 2) / 3) && PadCount(n) == PadCount(n - 3)
  {
  }

  function Encode(bs: seq<byte>): (s: string)
    ensures |s| == 4 * ((|bs| + 2) / 3)
  {
    GroupArithmetic(|bs|);
    if |bs| == 0 then []
    else if |bs| <= 2 then EncodeGroup(bs)
    else EncodeGroup(bs[..3]) + Encode(bs[3..])
  }

  /** The encoding is alphabet symbols followed by exactly `PadCount` pad characters. */
  lemma {:induction false} EncodeAlphabet(bs: seq<byte>)
    ensures var s := Encode(bs);
      && PadCount(|bs|) <= |s|
      && (forall i :: 0 <= i < |s| - PadCount(|bs|) ==> IsUrlSafe(s[i]))
      && (forall i :: |s| - PadCount(|bs|) <= i < |s| ==> s[i] == Pad)
    decreases |bs|
  {
    GroupArithmetic(|bs|);
    if |bs| >= 3 {
      var head := EncodeGroup(bs[..3]);
      var rest := Encode(bs[3..]);
      EncodeAlphabet(bs[3..]);
      assert forall i :: 0 <= i < 4 ==> IsUrlSafe(head[i]);
      EncodeConcat(head, rest, PadCount(|bs[3..]|));
    }
  }

  /** A full group followed by the rest: padding only at the end of the rest. */
  lemma EncodeConcat(head: string, rest: string, pad: nat)
    requires |head| == 4 && forall i :: 0 <= i < 4 ==> IsUrlSafe(head[i])
    requires pad <= |rest|
    requires forall i :: 0 <= i < |rest| - pad ==> IsUrlSafe(rest[i])
    requires forall i :: |rest| - pad <= i < |rest| ==> rest[i] == Pad
    ensures forall i :: 0 <= i < |head + rest| - pad ==> IsUrlSafe((head + rest)[i])
    ensures forall i :: |head + rest| - pad <= i < |head + rest| ==> (head + rest)[i] == Pad
  {
    forall i | 0 <= i < |head + rest| - pad
      ensures IsUrlSafe((head + rest)[i])
    {
      if i >= 4 {
        assert (head + rest)[i] == rest[i - 4];
      }
    }
    forall i | |head + rest| - pad <= i < |head + rest|
      ensures (head + rest)[i] == Pad
    {
      assert (head + rest)[i] == rest[i - 4];
    }
  }

  /** Decodes four characters: three bytes, or one or two before `==` or `=`. */
  function DecodeGroup(q: string): (r: Option<seq<byte>>)
    requires |q| == 4
    ensures r.Some? ==> 1 <= |r.value| <= 3
  {
    var v0, v1, v2, v3 := Value(q[0]), Value(q[1]), Value(q[2]), Value(q[3]);
    if v0.None? || v1.None? then None
    else if q[2] == Pad && q[3] == Pad then
      Some([v0.value * 4 + v1.value / 16])
    else if v2.None? then None
    else if q[3] == Pad then
      Some([v0.value * 4 + v1.value / 16, (v1.value % 16) * 16 + v2.value / 4])
    else if v3.None? then None
    else
      Some([v0.value * 4 + v1.value / 16, (v1.value % 16) * 16 + v2.value / 4,
            (v2.value % 4) * 64 + v3.value])
  }

  /** Decodes padded URL-safe Base64; `None` for a wrong length, a foreign character or
      padding anywhere but at the very end. */
  function Decode(s: string): (r: Option<seq<byte>>)
    decreases |s|
  {
    if |s| == 0 then Some([])
    else if |s| < 4 then None
    else
      match DecodeGroup(s[..4])
      case None => None
      case Some(g) =>
        if |g| < 3 then (if |s| == 4 then Some(g) else None)
        else
          match Decode(s[4..])
          case None => None
          case Some(rest) => Some(g + rest)
  }

  /** The symbols of one group decode to its bytes. */
  lemma BlockArithmetic(b0: byte, b1: byte, b2: byte)
    ensures var v1 := (b0 % 4) * 16 + b1 / 16;
            var v2 := (b1 % 16) * 4 + b2 / 64;
            && 0 <= v1 < 64 && 0 <= v2 < 64
            && (b0 / 4) * 4 + v1 / 16 == b0
            && (v1 % 16) * 16 + v2 / 4 == b1
            && (v2 % 4) * 64 + b2 % 64 == b2
  {
    var v1 := (b0 % 4) * 16 + b1 / 16;
    var v2 := (b1 % 16) * 4 + b2 / 64;
    assert v1 / 16 == b0 % 4 && v1 % 16 == b1 / 16;
    assert v2 / 4 == b1 % 16 && v2 % 4 == b2 / 64;
  }

  /** The four symbols of a group, before padding replaces the unused ones. */
  lemma GroupSymbols(g: seq<byte>)
    requires 1 <= |g| <= 3
    ensures var b0 := g[0];
      var b1 := if |g| > 1 then g[1] else 0;
      var b2 := if |g| > 2 then g[2] else 0;
      var q := EncodeGroup(g);
      && Value(q[0]) == Some(b0 / 4)
      && Value(q[1]) == Some((b0 % 4) * 16 + b1 / 16)
      && (|g| > 1 ==> Value(q[2]) == Some((b1 % 16) * 4 + b2 / 64))
      && (|g| > 2 ==> Value(q[3]) == Some(b2 % 64))
      && (|g| == 1 ==> q[2] == Pad)
      && (|g| <= 2 ==> q[3] == Pad)
  {
    var b0 := g[0];
    var b1 := if |g| > 1 then g[1] else 0;
    var b2 := if |g| > 2 then g[2] else 0;
    BlockArithmetic(b0, b1, b2);
    ValueSymbol(b0 / 4);
    ValueSymbol((b0 % 4) * 16 + b1 / 16);
    ValueSymbol((b1 % 16) * 4 + b2 / 64);
    ValueSymbol(b2 % 64);
  }

  lemma DecodeEncodeGroup(g: seq<byte>)
    requires 1 <= |g| <= 3
    ensures DecodeGroup(EncodeGroup(g)) == Some(g)
  {
    var b0 := g[0];
    var b1 := if |g| > 1 then g[1] else 0;
    var b2 := if |g| > 2 then g[2] else 0;
    GroupSymbols(g);
    BlockArithmetic(b0, b1, b2);
    if |g| == 1 {
      assert g == [b0];
    } else if |g| == 2 {
      assert g == [b0, b1];
    } else {
      assert g == [b0, b1, b2];
    }
  }

  /** A final group of one or two bytes is the whole encoding and decodes alone. */
  lemma DecodeEncodeShort(bs: seq<byte>)
    requires 1 <= |bs| <= 2
    ensures Decode(Encode(bs)) == Some(bs)
  {
    assert Encode(bs) == EncodeGroup(bs);
    DecodeEncodeGroup(bs);
    var q := EncodeGroup(bs);
    assert q[..4] == q;
  }

  /** Decoding a string whose first four characters are a full group. */
  lemma DecodeFullGroup(q: string, t: string, g: seq<byte>, rest: seq<byte>)
    requires |q| == 4 && DecodeGroup(q) == Some(g) && |g| == 3
    requires Decode(t) == Some(rest)
    ensures Decode(q + t) == Some(g + rest)
  {
    assert (q + t)[..4] == q;
    assert (q + t)[4..] == t;
  }

  /** One full group in front of the rest, which round-trips by `DecodeEncode`. */
  lemma {:induction false} DecodeEncodeStep(bs: seq<byte>)
    requires |bs| > 2
    ensures Decode(Encode(bs)) == Some(bs)
    decreases |bs|, 0
  {
    DecodeEncode(bs[3..]);
    assert Encode(bs) == EncodeGroup(bs[..3]) + Encode(bs[3..]);
    DecodeEncodeGroup(bs[..3]);
    DecodeFullGroup(EncodeGroup(bs[..3]), Encode(bs[3..]), bs[..3], bs[3..]);
    assert bs[..3] + bs[3..] == bs;
  }

  /** Round trip: decoding an encoding gives the bytes back. */
  lemma {:induction false} DecodeEncode(bs: seq<byte>)
    ensures Decode(Encode(bs)) == Some(bs)
    decreases |bs|, 1
  {
    if 0 < |bs| <= 2 {
      DecodeEncodeShort(bs);
    } else if |bs| > 2 {
      DecodeEncodeStep(bs);
    }
  }

  /** Different byte strings have different encodings. */
  lemma EncodeInjective(a: seq<byte>, b: seq<byte>)
    requires Encode(a) == Encode(b)
    ensures a == b
  {
    DecodeEncode(a);
    DecodeEncode(b);
  }
}

=== FILE: cli.dfy ===
/** The command-line front end (cli/src/main.rs): one `download` command whose two
    selectors choose the songs' source.

    Authentication, the id check and the three library entry points are parameters
    (`Env`): the model fixes what is called, in which order, and how their results become
    the program's result. The library entry points themselves are modelled in module
    Library.
 */
module Cli {
  import opened Outcomes

  /** `download [--playlist-id <id>] [--playlists]`. */
  datatype Command = Download(playlistId: Option<string>, playlists: bool)

  /** Where the songs come from. */
  datatype Source = Liked | Playlist(id: string) | AllPlaylists

  /** A call `main` makes. */
  datatype Step = Authenticate | Fetch(source: Source)

  /** What the calls answer: `auth` is `authenticate`, `parseId` is `PlaylistId::from_id`
      (its `Ok` value is the checked id), and the rest are the outcomes of
      `get_from_liked`, `get_from_playlist` and `get_from_all_playlists`. */
  datatype Env = Env(auth: Result<()>, parseId: string -> Result<string>,
                     liked: Exec<()>, playlist: string -> Exec<()>, all: Exec<()>)

  datatype Run = Run(outcome: Exec<()>, steps: seq<Step>)

  const InvalidId: string := "ID contains invalid characters."
  const TodoPanic: string := "not yet implemented"
  const UnreachablePanic: string := "internal error: entered unreachable code"

  /** The selector combinations `main` accepts: neither (liked songs), an id alone, or
      `--playlists` alone. */
  function Selected(command: Command): Option<Source>
  {
    match command
    case Download(None, false) => Some(Liked)
    case Download(Some(id), false) => Some(Playlist(id))
    case Download(None, true) => Some(AllPlaylists)
    case Download(Some(_), true) => None
  }

  /** `main`. */
  function Main(command: Option<Command>, env: Env): (r: Run)
    ensures command.None? ==> r == Run(Panicked(TodoPanic), [])
    ensures command.Some? && Selected(command.value).None? ==> r == Run(Panicked(UnreachablePanic), [])
    ensures r.steps != [] <==> command.Some? && Selected(command.value).Some?
    ensures r.steps != [] ==> r.steps[0] == Authenticate && |r.steps| <= 2
    ensures |r.steps| == 2 ==>
      && r.steps[1].Fetch?
      && (match Selected(command.value).value
          case Playlist(raw) => env.parseId(raw).Ok? && r.steps[1].source == Playlist(env.parseId(raw).value)
          case s => r.steps[1].source == s)
    ensures r.steps != [] && env.auth.Err? ==> r == Run(Returned(Err(env.auth.error)), [Authenticate])
    ensures |r.steps| == 2 ==> r.outcome == (match r.steps[1].source
                                             case Liked => env.liked
                                             case Playlist(id) => env.playlist(id)
                                             case AllPlaylists => env.all)
  {
    match command
    case None => Run(Panicked(TodoPanic), [])
    case Some(Download(None, false)) =>
      if env.auth.Err? then Run(Returned(Err(env.auth.error)), [Authenticate])
      else Run(env.liked, [Authenticate, Fetch(Liked)])
    case Some(Download(Some(raw), false)) =>
      if env.auth.Err? then Run(Returned(Err(env.auth.error)), [Authenticate])
      else
        (match WithContext(env.parseId(raw), InvalidId)
         case Err(e) => Run(Returned(Err(e)), [Authenticate])
         case Ok(id) => Run(env.playlist(id), [Authenticate, Fetch(Playlist(id))]))
    case Some(Download(None, true)) =>
      if env.auth.Err? then Run(Returned(Err(env.auth.error)), [Authenticate])
      else Run(env.all, [Authenticate, Fetch(AllPlaylists)])
    case Some(Download(Some(_), true)) => Run(Panicked(UnreachablePanic), [])
  }

  /** An id that fails the check is reported with the CLI's context, after authentication
      and before any fetch. */
  lemma InvalidIdStopsBeforeFetch(raw: string, env: Env)
    requires env.auth.Ok? && env.parseId(raw).Err?
    ensures Main(Some(Download(Some(raw), false)), env)
         == Run(Returned(Err([InvalidId] + env.parseId(raw).error)), [Authenticate])
  {
  }

  /** Every accepted command authenticates first and fetches from the selected source, and
      the program ends with `Ok` exactly when authentication, the id check and that fetch
      all succeed. */
  lemma AcceptedCommandsFetchOnce(command: Command, env: Env)
    requires Selected(command).Some?
    ensures var r := Main(Some(command), env);
      && r.steps[0] == Authenticate
      && (r.outcome.IsOk() <==>
            && env.auth.Ok?
            && match Selected(command).value
               case Liked => env.liked.IsOk()
               case Playlist(raw) => env.parseId(raw).Ok? && env.playlist(env.parseId(raw).value).IsOk()
               case AllPlaylists => env.all.IsOk())
  {
  }
}

=== FILE: download.dfy ===
/** The thumbnail downloader (spotify-api/src/lib.rs, `download_image`) and the path scheme
    it shares with src/main.rs.

    A thumbnail goes to `./images/<urlsafe-base64(utf8(name))>@<id>.jpg`. Because the
    encoded name uses only `A-Z a-z 0-9 - _ =`, it contains no `@`, so the path splits
    back into `(name, id)` at its first `@` (`ParsePath`), whatever the id holds. The
    encoded name holds no `/` either; the path names a file directly under `./images/`
    when the id holds no `/`.

    The network and the file system are parameters: `send` is the HTTP GET (with the
    client's retries already applied) and `store` creates the directory, creates the file
    and writes the bytes.
 */
module Download {
  import opened Outcomes
  import opened Utf8
  import Base64
  import opened Songs

  const ImagesDir: string := "./images/"
  const Extension: string := ".jpg"

  /** The encoded file-name part for a song name. */
  function EncodedName(name: string): string
  {
    Base64.Encode(Utf8.Encode(name))
  }

  function OutputPath(name: string, id: string): string
  {
    ImagesDir + EncodedName(name) + "@" + id + Extension
  }

  /** The encoded name is padded URL-safe Base64 of the name's UTF-8 bytes: every
      character is in the alphabet or is `=`, so none is `/` or `@`, and its length is
      four characters per started group of three bytes. */
  lemma EncodedNameShape(name: string)
    ensures var enc := EncodedName(name);
      && |enc| == 4 * ((|Utf8.Encode(name)| + 2) / 3)
      && (forall i :: 0 <= i < |enc| ==> Base64.IsUrlSafe(enc[i]) || enc[i] == Base64.Pad)
      && (forall i :: 0 <= i < |enc| ==> enc[i] != '/' && enc[i] != '@')
  {
    var bs := Utf8.Encode(name);
    var enc := EncodedName(name);
    Base64.EncodeAlphabet(bs);
    forall i | 0 <= i < |enc|
      ensures Base64.IsUrlSafe(enc[i]) || enc[i] == Base64.Pad
    {
      if i < |enc| - Base64.PadCount(|bs|) {
        assert Base64.IsUrlSafe(enc[i]);
      } else {
        assert enc[i] == Base64.Pad;
      }
    }
  }

  /** Position of the first occurrence of `c` in `s`. */
  function IndexOf(s: string, c: char): (r: Option<nat>)
    ensures r.Some? ==> r.value < |s| && s[r.value] == c && forall j :: 0 <= j < r.value ==> s[j] != c
    ensures r.None? ==> forall j :: 0 <= j < |s| ==> s[j] != c
  {
    var isC := (x: char) => x == c;
    FirstWhereNone(s, isC);
    var r := FirstWhere(s, isC);
    if r.Some? then FirstWhereMinimal(s, isC); r else r
  }

  /** Reads `(name, id)` back from a thumbnail path; `None` for a string that is not
      `./images/`, a decodable name part, `@`, an id and `.jpg`. It inverts `OutputPath`
      but accepts more than its outputs: the group decoder ignores the spare low bits of a
      padded group's last symbol, so `TR==` and `TQ==` both read as the byte 77. */
  function ParsePath(path: string): Option<(string, string)>
  {
    if |path| < |ImagesDir| + |Extension| || path[..|ImagesDir|] != ImagesDir
       || path[|path| - |Extension|..] != Extension then
      None
    else
      ParseFileStem(path[|ImagesDir|..|path| - |Extension|])
  }

  /** Reads `(name, id)` back from the part of a path between the directory and the
      extension: the name's encoding runs up to the first `@`, the id follows it. */
  function ParseFileStem(stem: string): Option<(string, string)>
  {
    match IndexOf(stem, '@')
    case None => None
    case Some(at) =>
      match Base64.Decode(stem[..at])
      case None => None
      case Some(bytes) =>
        match Utf8.Decode(bytes)
        case None => None
        case Some(name) => Some((name, stem[at + 1..]))
  }

  /** A path in the thumbnail directory with the thumbnail extension parses as its stem. */
  lemma ParsePathStem(stem: string)
    ensures ParsePath(ImagesDir + stem + Extension) == ParseFileStem(stem)
  {
    var path := ImagesDir + stem + Extension;
    assert path[..|ImagesDir|] == ImagesDir;
    assert path[|path| - |Extension|..] == Extension;
    assert path[|ImagesDir|..|path| - |Extension|] == stem;
  }

  /** A string split at a separator that does not occur before it splits back at it. */
  lemma IndexOfSplit(a: string, c: char, b: string)
    requires forall j :: 0 <= j < |a| ==> a[j] != c
    ensures IndexOf(a + [c] + b, c) == Some(|a|)
    ensures (a + [c] + b)[..|a|] == a && (a + [c] + b)[|a| + 1..] == b
  {
    var s := a + [c] + b;
    assert forall j :: 0 <= j < |a| ==> s[j] == a[j];
    assert s[|a|] == c;
  }

  /** The path determines the song's name and id: parsing a thumbnail path gives them back. */
  lemma ParseOutputPath(name: string, id: string)
    ensures ParsePath(OutputPath(name, id)) == Some((name, id))
  {
    var enc := EncodedName(name);
    var stem := enc + "@" + id;
    assert OutputPath(name, id) == ImagesDir + stem + Extension;
    ParsePathStem(stem);
    EncodedNameShape(name);
    IndexOfSplit(enc, '@', id);
    Base64.DecodeEncode(Utf8.Encode(name));
    Utf8.DecodeEncode(name);
  }

  /** Distinct `(name, id)` pairs get distinct files. */
  lemma OutputPathInjective(n1: string, i1: string, n2: string, i2: string)
    requires OutputPath(n1, i1) == OutputPath(n2, i2)
    ensures n1 == n2 && i1 == i2
  {
    ParseOutputPath(n1, i1);
    ParseOutputPath(n2, i2);
  }

  /** An HTTP response. reqwest reports an error status as a successful response; the body
      is read separately and that read can fail on its own. */
  datatype Response = Response(status: nat, body: Result<seq<byte>>)

  /** The HTTP GET of a URL. */
  type Send = string -> Result<Response>

  /** Writing a file: `create_dir_all`, `File::create` and `write_all` in one step. */
  type Store = (string, seq<byte>) -> Result<()>

  /** What one download did: its result, the URLs it requested, the files it wrote and how
      far it moved the download progress bar. */
  datatype Report = Report(result: Result<()>, requested: seq<string>,
                           written: seq<(string, seq<byte>)>, progress: nat)

  /** `download_image`. */
  function DownloadImage(song: Song, send: Send,
                         store: Store): (r: Report)
    ensures song.images == [] ==> r == Report(Ok(()), [], [], 0)
    ensures song.images != [] ==> r.requested == [song.images[0]]
    ensures r.progress <= 1 && |r.written| <= 1
    ensures r.progress == 1 <==> r.written != []
    ensures r.progress == 1 <==> song.images != [] && r.result.Ok?
    ensures r.result.Err? <==>
      && song.images != []
      && (|| send(song.images[0]).Err?
          || send(song.images[0]).value.body.Err?
          || store(OutputPath(song.name, song.id), send(song.images[0]).value.body.value).Err?)
    ensures r.written != [] ==> r.written[0].0 == OutputPath(song.name, song.id)
    ensures r.written != [] ==> ParsePath(r.written[0].0) == Some((song.name, song.id))
    ensures r.written != [] ==> Ok(r.written[0].1) == send(song.images[0]).value.body
  {
    var path := OutputPath(song.name, song.id);
    if song.images == [] then
      Report(Ok(()), [], [], 0)
    else
      var url := song.images[0];
      match send(url)
      case Err(e) => Report(Err(e), [url], [], 0)
      case Ok(response) =>
        match response.body
        case Err(e) => Report(Err(e), [url], [], 0)
        case Ok(data) =>
          match store(path, data)
          case Err(e) => Report(Err(e), [url], [], 0)
          case Ok(_) =>
            ParseOutputPath(song.name, song.id);
            Report(Ok(()), [url], [(path, data)], 1)
  }

  /** The response status plays no part: a download whose server answers with any status
      writes the body it received, exactly as with a 200. */
  lemma StatusIgnored(song: Song, send: Send, send': Send,
                      store: Store)
    requires song.images != []
    requires send(song.images[0]).Ok? && send'(song.images[0]).Ok?
    requires send(song.images[0]).value.body == send'(song.images[0]).value.body
    ensures DownloadImage(song, send, store) == DownloadImage(song, send', store)
  {
  }
}

=== FILE: imagesearch.dfy ===
/** The thumbnail search service's bookkeeping (app.py): which files of the image folder
    form the dataset, how a batch drops the images that failed to load, what the
    precompute step records, and when a start reuses the recorded embeddings.

    The model, the tensors and the ranking are numeric and are not modelled: an
    embedding is represented by the row it occupies, so the precompute step yields the
    number of rows it would save next to the filenames it records. Decoding an image is a
    parameter `load` (`None` when PIL cannot open the file).
 */
module ImageSearch {
  import opened Outcomes
  import opened Ordering

  const BatchSize: nat := 64
  const ModelName: string := "openai/clip-vit-large-patch14"
  const EmptyConcat: string := "torch.cat(): expected a non-empty list of Tensors"

  /** `str.lower` on ASCII letters; other characters are left as they are. */
  function LowerChar(c: char): char
  {
    if 'A' <= c <= 'Z' then (c as int + 32) as char else c
  }

  function Lower(s: string): (r: string)
    ensures |r| == |s|
    ensures forall i :: 0 <= i < |s| ==> r[i] == LowerChar(s[i])
  {
    if |s| == 0 then [] else [LowerChar(s[0])] + Lower(s[1..])
  }

  predicate EndsWith(s: string, suffix: string)
  {
    |suffix| <= |s| && s[|s| - |suffix|..] == suffix
  }

  /** The dataset's filter: the lower-cased name ends in `.png`, `.jpg` or `.jpeg`. */
  predicate IsImageName(f: string)
  {
    var l := Lower(f);
    EndsWith(l, ".png") || EndsWith(l, ".jpg") || EndsWith(l, ".jpeg")
  }

  /** The filter is case-insensitive: a name passes exactly when its lower-cased form does. */
  lemma ImageNameIgnoresCase(f: string)
    ensures IsImageName(f) <==> IsImageName(Lower(f))
  {
    assert Lower(Lower(f)) == Lower(f);
  }

  /** The listing's image names, in listing order. */
  function Images(listing: seq<string>): (r: seq<string>)
    ensures |r| <= |listing|
  {
    if |listing| == 0 then []
    else if IsImageName(listing[0]) then [listing[0]] + Images(listing[1..])
    else Images(listing[1..])
  }

  /** The filter keeps every image name as often as the listing has it, and nothing else. */
  lemma {:induction false} ImagesMembers(listing: seq<string>)
    ensures forall f :: multiset(Images(listing))[f] == if IsImageName(f) then multiset(listing)[f] else 0
    ensures forall f :: f in Images(listing) <==> f in listing && IsImageName(f)
  {
    if |listing| > 0 {
      ImagesMembers(listing[1..]);
      assert listing == [listing[0]] + listing[1..];
    }
    forall f ensures f in Images(listing) <==> f in listing && IsImageName(f) {
      assert f in Images(listing) <==> f in multiset(Images(listing));
      assert f in listing <==> f in multiset(listing);
    }
  }

  /** `ImageDataset.image_files`: the sorted image names of the folder listing. */
  function ImageFiles(listing: seq<string>): seq<string>
  {
    Sort(Images(listing))
  }

  /** The dataset holds exactly the listing's image names, ascending, once per listing
      entry; its length is the listing's length exactly when every entry is an image. */
  lemma ImageFilesShape(listing: seq<string>)
    ensures Sorted(ImageFiles(listing))
    ensures forall f :: f in ImageFiles(listing) <==> f in listing && IsImageName(f)
    ensures |ImageFiles(listing)| == |Images(listing)| <= |listing|
    ensures |ImageFiles(listing)| == |listing| <==> forall i :: 0 <= i < |listing| ==> IsImageName(listing[i])
  {
    var imgs := Images(listing);
    ImagesMembers(listing);
    assert |ImageFiles(listing)| == |multiset(ImageFiles(listing))| == |multiset(imgs)| == |imgs|;
    forall f ensures f in ImageFiles(listing) <==> f in imgs {
      assert f in ImageFiles(listing) <==> f in multiset(ImageFiles(listing));
    }
    ImagesCount(listing);
  }

  /** The filter keeps at most every entry, and all of them exactly when each is an image. */
  lemma {:induction false} ImagesCount(listing: seq<string>)
    ensures |Images(listing)| <= |listing|
    ensures |Images(listing)| == |listing| <==> forall i :: 0 <= i < |listing| ==> IsImageName(listing[i])
  {
    if |listing| > 0 {
      ImagesCount(listing[1..]);
      assert forall i :: 1 <= i < |listing| ==> listing[i] == listing[1..][i - 1];
    }
  }

  /** The dataset's order does not depend on the order the directory is listed in. */
  lemma ImageFilesOrderIndependent(l1: seq<string>, l2: seq<string>)
    requires multiset(l1) == multiset(l2)
    ensures ImageFiles(l1) == ImageFiles(l2)
  {
    var i1, i2 := Images(l1), Images(l2);
    ImagesMembers(l1);
    ImagesMembers(l2);
    forall f ensures multiset(i1)[f] == multiset(i2)[f] {
    }
    assert multiset(i1) == multiset(i2);
    assert multiset(Sort(i1)) == multiset(Sort(i2));
    SortedUnique(ImageFiles(l1), ImageFiles(l2));
  }

  /** What `ImageDataset.__getitem__` returns: `(None, None)` when the file cannot be
      opened (`Failed`), otherwise the image and its name. */
  datatype Sample<I> = Failed | Sample(image: I, filename: string)

  function GetItem<I>(file: string, load: string -> Option<I>): (r: Sample<I>)
    ensures r.Sample? <==> load(file).Some?
    ensures r.Sample? ==> load(file) == Some(r.image) && r.filename == file
  {
    match load(file)
    case Some(image) => Sample(image, file)
    case None => Failed
  }

  /** The samples of a run of dataset entries, in order. */
  function Samples<I>(files: seq<string>, load: string -> Option<I>): (r: seq<Sample<I>>)
    ensures |r| == |files|
    ensures forall i :: 0 <= i < |files| ==> r[i] == GetItem(files[i], load)
  {
    if |files| == 0 then [] else Samples(files[..|files| - 1], load) + [GetItem(files[|files| - 1], load)]
  }

  /** The samples whose image loaded, in order. */
  function Keep<I>(batch: seq<Sample<I>>): (kept: seq<Sample<I>>)
    ensures |kept| <= |batch|
  {
    if |batch| == 0 then []
    else
      var init := batch[..|batch| - 1];
      var last := batch[|batch| - 1];
      if last.Sample? then Keep(init) + [last] else Keep(init)
  }

  /** The kept samples are exactly the batch's samples with an image. */
  lemma {:induction false} KeepMembers<I>(batch: seq<Sample<I>>)
    ensures forall s :: s in Keep(batch) <==> s in batch && s.Sample?
  {
    if |batch| > 0 {
      var init := batch[..|batch| - 1];
      KeepMembers(init);
      assert batch == init + [batch[|batch| - 1]];
    }
  }

  /** `collate_fn`: the loaded images and their names, side by side, in batch order. */
  method Collate<I>(batch: seq<Sample<I>>) returns (images: seq<I>, filenames: seq<string>)
    ensures |images| == |filenames| == |Keep(batch)|
    ensures forall i :: 0 <= i < |images| ==> Keep(batch)[i] == Sample(images[i], filenames[i])
  {
    images, filenames := [], [];
    var j := 0;
    while j < |batch|
      invariant j <= |batch|
      invariant |images| == |filenames| == |Keep(batch[..j])|
      invariant forall i :: 0 <= i < |images| ==> Keep(batch[..j])[i] == Sample(images[i], filenames[i])
    {
      assert batch[..j + 1][..j] == batch[..j];
      var sample := batch[j];
      if sample.Sample? {
        images := images + [sample.image];
        filenames := filenames + [sample.filename];
      }
      j := j + 1;
    }
    assert batch[..j] == batch;
  }

  /** The entries whose image loads, in order. */
  function Loaded<I>(files: seq<string>, load: string -> Option<I>): (r: seq<string>)
    ensures |r| <= |files|
  {
    if |files| == 0 then []
    else
      var init := files[..|files| - 1];
      var last := files[|files| - 1];
      if load(last).Some? then Loaded(init, load) + [last] else Loaded(init, load)
  }

  /** The loaded entries are exactly the entries whose image loads. */
  lemma {:induction false} LoadedMembers<I>(files: seq<string>, load: string -> Option<I>)
    ensures forall f :: f in Loaded(files, load) <==> f in files && load(f).Some?
  {
    if |files| > 0 {
      var init := files[..|files| - 1];
      LoadedMembers(init, load);
      assert files == init + [files[|files| - 1]];
    }
  }

  /** Collating the samples of a run keeps exactly the entries that load, in order. */
  lemma {:induction false} KeepSamples<I>(files: seq<string>, load: string -> Option<I>)
    ensures var kept := Keep(Samples(files, load));
      var loaded := Loaded(files, load);
      && |kept| == |loaded|
      && forall i :: 0 <= i < |kept| ==>
           kept[i].Sample? && load(loaded[i]) == Some(kept[i].image) && kept[i].filename == loaded[i]
    decreases |files|
  {
    if |files| > 0 {
      var init := files[..|files| - 1];
      KeepSamples(init, load);
      var s := Samples(files, load);
      assert s[..|s| - 1] == Samples(init, load);
    }
  }

  lemma {:induction false} LoadedAppend<I>(a: seq<string>, b: seq<string>, load: string -> Option<I>)
    ensures Loaded(a + b, load) == Loaded(a, load) + Loaded(b, load)
    decreases |b|
  {
    if |b| == 0 {
      assert a + b == a;
    } else {
      var b' := b[..|b| - 1];
      LoadedAppend(a, b', load);
      assert (a + b)[..|a + b| - 1] == a + b';
      assert (a + b)[|a + b| - 1] == b[|b| - 1];
    }
  }

  /** The recorded metadata (`embedding_dim` is left out): `rows` is the number of
      embedding rows saved with it. */
  datatype Metadata = Metadata(model: string, imageCount: nat, rows: nat,
                               filenames: seq<Option<string>>, folder: string)

  /** Names as the metadata's JSON list holds them. The list read back from the file is
      arbitrary JSON and may hold `null` or other values (`None` here); the list a
      precompute writes holds only names. */
  function Wrap(names: seq<string>): (r: seq<Option<string>>)
    ensures |r| == |names|
    ensures forall i :: 0 <= i < |names| ==> r[i] == Some(names[i])
  {
    seq(|names|, i requires 0 <= i < |names| => Some(names[i]))
  }

  /** The end of the batch that starts at `start`: up to `BatchSize` entries. */
  function BatchEnd(n: nat, start: nat): (e: nat)
    requires start < n
    ensures start < e <= n && e - start <= BatchSize
    ensures e < n ==> e - start == BatchSize
  {
    if start + BatchSize <= n then start + BatchSize else n
  }

  /** One batch of the data loader: the samples of `batch`, collated. */
  method LoadBatch<I>(batch: seq<string>, load: string -> Option<I>)
    returns (images: seq<I>, names: seq<string>)
    ensures |images| == |names|
    ensures names == Loaded(batch, load)
    ensures forall i :: 0 <= i < |images| ==> Some(images[i]) == load(Loaded(batch, load)[i])
  {
    images, names := Collate(Samples(batch, load));
    KeepSamples(batch, load);
  }

  /** The loop of `precompute_embeddings` over the dataset `files`: batches of 64, each
      collated; a batch with images adds one embedding chunk of one row per image, and its
      names. */
  method EmbedAll<I>(files: seq<string>, load: string -> Option<I>)
    returns (filenames: seq<string>, rows: nat, chunks: nat)
    ensures filenames == Loaded(files, load)
    ensures rows == |filenames|
    ensures chunks == 0 <==> rows == 0
  {
    var n := |files|;
    filenames, rows, chunks := [], 0, 0;
    var start := 0;
    while start < n
      invariant start <= n
      invariant filenames == Loaded(files[..start], load)
      invariant rows == |filenames|
      invariant chunks == 0 <==> rows == 0
    {
      var end := BatchEnd(n, start);
      var batch := files[start..end];
      var images, names := LoadBatch(batch, load);
      LoadedAppend(files[..start], batch, load);
      assert files[..end] == files[..start] + batch;
      if images != [] {
        chunks := chunks + 1;
        rows := rows + |images|;
        filenames := filenames + names;
      } else {
        assert filenames + names == filenames;
      }
      start := end;
    }
    assert files[..start] == files;
  }

  /** `precompute_embeddings`, for a folder whose absolute path is `folder`. The final
      concatenation of the chunks fails when no batch had an image. */
  method Precompute<I>(listing: seq<string>, load: string -> Option<I>, folder: string)
    returns (r: Result<Metadata>)
    ensures var loaded := Loaded(ImageFiles(listing), load);
      && (r.Ok? <==> loaded != [])
      && (r.Err? ==> r.error == [EmptyConcat])
      && (r.Ok? ==> r.value.model == ModelName && r.value.folder == folder)
      && (r.Ok? ==> r.value.imageCount == r.value.rows == |r.value.filenames| == |loaded|)
      && (r.Ok? ==> r.value.filenames == Wrap(loaded))
  {
    var filenames, rows, chunks := EmbedAll(ImageFiles(listing), load);
    if chunks == 0 {
      return Fail(EmptyConcat);
    }
    r := Ok(Metadata(ModelName, |filenames|, rows, Wrap(filenames), folder));
  }

  /** What a start finds on disk: whether the embeddings file exists, and the metadata file
      when it exists. */
  datatype Cache = Cache(embeddingsSaved: bool, metadata: Option<Metadata>)

  /** `load_embeddings` reuses the saved embeddings when both files exist, they were made
      for this folder, and the folder's entries are exactly the recorded names. */
  predicate Reuses(cache: Cache, folder: string, listing: seq<string>)
  {
    && cache.embeddingsSaved
    && cache.metadata.Some?
    && cache.metadata.value.folder == folder
    && (set f | f in listing :: Some(f)) == (set n | n in cache.metadata.value.filenames)
  }

  /** `load_embeddings`: the three checks in order, each falling back to a precompute; the
      saved metadata when all pass. */
  method LoadEmbeddings<I>(cache: Cache, folder: string, listing: seq<string>, load: string -> Option<I>)
    returns (r: Result<Metadata>, recomputed: bool)
    ensures recomputed <==> !Reuses(cache, folder, listing)
    ensures !recomputed ==> r == Ok(cache.metadata.value)
    ensures recomputed ==> (r.Ok? <==> Loaded(ImageFiles(listing), load) != [])
    ensures recomputed && r.Ok? ==> r.value.folder == folder && r.value.filenames == Wrap(Loaded(ImageFiles(listing), load))
  {
    if !cache.embeddingsSaved || cache.metadata.None? {
      r := Precompute(listing, load, folder);
      return r, true;
    }
    var metadata := cache.metadata.value;
    if folder != metadata.folder {
      r := Precompute(listing, load, folder);
      return r, true;
    }
    var current := set f | f in listing :: Some(f);
    var saved := set n | n in metadata.filenames;
    if current != saved {
      r := Precompute(listing, load, folder);
      return r, true;
    }
    return Ok(metadata), false;
  }

  /** A name is recorded exactly when it is one of the wrapped names. */
  lemma WrapMembers(names: seq<string>)
    ensures forall n :: n in Wrap(names) <==> n.Some? && n.value in names
  {
    forall n ensures n in Wrap(names) <==> n.Some? && n.value in names {
      if n in Wrap(names) {
        var i :| 0 <= i < |names| && Wrap(names)[i] == n;
      }
      if n.Some? && n.value in names {
        var i :| 0 <= i < |names| && names[i] == n.value;
        assert Wrap(names)[i] == n;
      }
    }
  }

  /** The wrapped listing is the wrapped set of loaded names exactly when every entry of
      the listing is among them. */
  lemma SameNames(listing: seq<string>, loaded: seq<string>)
    requires forall f :: f in loaded ==> f in listing
    ensures (set f | f in listing :: Some(f)) == (set n | n in Wrap(loaded))
        <==> forall f :: f in listing ==> f in loaded
  {
    var current := set f | f in listing :: Some(f);
    var saved := set n | n in Wrap(loaded);
    WrapMembers(loaded);
    if current == saved {
      forall f | f in listing ensures f in loaded {
        assert Some(f) in current;
      }
    }
    if forall f :: f in listing ==> f in loaded {
      forall n ensures n in current <==> n in saved {
        if n in current {
          var f :| f in listing && Some(f) == n;
        }
      }
      assert current == saved;
    }
  }

  /** Right after a precompute, the next start over the same folder reuses what it saved
      exactly when every entry of the folder is an image file that loads: one other file,
      or one image that fails to load, makes every start precompute again. */
  lemma ReuseAfterPrecompute<I>(listing: seq<string>, load: string -> Option<I>, folder: string, m: Metadata)
    requires m.folder == folder
    requires m.filenames == Wrap(Loaded(ImageFiles(listing), load))
    ensures Reuses(Cache(true, Some(m)), folder, listing)
        <==> forall f :: f in listing ==> IsImageName(f) && load(f).Some?
  {
    var loaded := Loaded(ImageFiles(listing), load);
    ImageFilesShape(listing);
    LoadedMembers(ImageFiles(listing), load);
    SameNames(listing, loaded);
    assert (forall f :: f in listing ==> f in loaded)
       <==> (forall f :: f in listing ==> IsImageName(f) && load(f).Some?);
  }
}

=== FILE: legacy.dfy ===
/** The first, stand-alone downloader (src/main.rs), which the library replaced.

    It collects every liked song into a hash set first (`get_from_liked`), then downloads
    the first thumbnail of each song in the set's iteration order. It differs from the
    library in four ways the model keeps:
    - a track without an id panics with `Option::unwrap`'s message;
    - a failed page request is returned as is, without the library's context message;
    - songs are deduplicated (the set compares all four fields);
    - a download error ends the run, and a song without images panics on `images[0]`.

    The set's iteration order is unspecified, so `DownloadAll` picks the next song with
    `:|`: every property of it holds whatever the order.
 */
module Legacy {
  import opened Outcomes
  import opened Paging
  import opened Songs
  import opened Download
  import Pipeline

  const UnwrapPanic: string := "called `Option::unwrap()` on a `None` value"
  const IndexPanic: string := "index out of bounds: the len is 0 but the index is 0"

  /** The inline conversion of a saved track. */
  function Convert(item: SavedTrack): (r: Exec<Song>)
    ensures !r.IsErr()
    ensures r.Panicked? <==> item.track.id.None?
    ensures r.Panicked? ==> r.message == UnwrapPanic
    ensures r.IsOk() ==> r.result.value == SongOf(item.track)
  {
    match item.track.id
    case None => Panicked(UnwrapPanic)
    case Some(_) => Returned(Ok(SongOf(item.track)))
  }

  /** The set of songs the items give. */
  function SongSet(items: seq<SavedTrack>): (songs: set<Song>)
    requires forall i :: 0 <= i < |items| ==> items[i].track.id.Some?
  {
    if |items| == 0 then {}
    else SongSet(items[..|items| - 1]) + {SongOf(items[|items| - 1].track)}
  }

  /** A song is collected exactly when some item gives it. */
  lemma {:induction false} SongSetMembers(items: seq<SavedTrack>, s: Song)
    requires forall i :: 0 <= i < |items| ==> items[i].track.id.Some?
    ensures s in SongSet(items) <==> exists i :: 0 <= i < |items| && SongOf(items[i].track) == s
    decreases |items|
  {
    if |items| > 0 {
      var init := items[..|items| - 1];
      SongSetMembers(init, s);
      assert forall i :: 0 <= i < |init| ==> init[i] == items[i];
      if s in SongSet(items) && s !in SongSet(init) {
        assert SongOf(items[|items| - 1].track) == s;
      }
    }
  }

  /** Collecting two runs of items one after the other. */
  lemma {:induction false} SongSetAppend(a: seq<SavedTrack>, b: seq<SavedTrack>)
    requires forall i :: 0 <= i < |a| ==> a[i].track.id.Some?
    requires forall i :: 0 <= i < |b| ==> b[i].track.id.Some?
    ensures forall i :: 0 <= i < |a + b| ==> (a + b)[i].track.id.Some?
    ensures SongSet(a + b) == SongSet(a) + SongSet(b)
    decreases |b|
  {
    if |b| == 0 {
      assert a + b == a;
    } else {
      var b' := b[..|b| - 1];
      SongSetAppend(a, b');
      assert (a + b)[..|a + b| - 1] == a + b';
      assert (a + b)[|a + b| - 1] == b[|b| - 1];
    }
  }

  /** The set holds at most one song per item. */
  lemma {:induction false} SongSetSize(items: seq<SavedTrack>)
    requires forall i :: 0 <= i < |items| ==> items[i].track.id.Some?
    ensures |SongSet(items)| <= |items|
    decreases |items|
  {
    if |items| > 0 {
      SongSetSize(items[..|items| - 1]);
    }
  }

  /** Two items that give the same song leave the set strictly smaller than the items. */
  lemma {:induction false} SongSetShrinks(items: seq<SavedTrack>, i: nat, j: nat)
    requires forall k :: 0 <= k < |items| ==> items[k].track.id.Some?
    requires i < j < |items| && SongOf(items[i].track) == SongOf(items[j].track)
    ensures |SongSet(items)| < |items|
    decreases |items|
  {
    var n := |items| - 1;
    var init := items[..n];
    if j == n {
      SongSetMembers(init, SongOf(items[n].track));
      assert init[i] == items[i];
      assert SongSet(items) == SongSet(init);
      SongSetSize(init);
    } else {
      assert init[i] == items[i] && init[j] == items[j];
      SongSetShrinks(init, i, j);
    }
  }

  /** The result of `get_from_liked`: the first missing id panics; otherwise a failed last
      request is returned unchanged; otherwise the set of every received song. */
  function CollectOutcome(fetch: Fetch<SavedTrack>, stop: nat): Exec<set<Song>>
    requires Halts(fetch, Pipeline.PanicsOf(Convert), stop)
  {
    match Pipeline.Walk(fetch, Convert, stop)
    case ConversionPanicked(_) => Panicked(UnwrapPanic)
    case PageFailed(e) => Returned(Err(e))
    case Completed =>
      var items := Received(fetch, Pipeline.PanicsOf(Convert), stop);
      Pipeline.WalkNoPanic(fetch, Convert, stop);
      assert forall i :: 0 <= i < |items| ==> items[i].track.id.Some? by {
        forall i | 0 <= i < |items| ensures items[i].track.id.Some? {
          assert !Pipeline.Panics(Convert, items[i]);
        }
      }
      Returned(Ok(SongSet(items)))
  }

  /** The inner loop over one page: inserts each item's song, advancing the bar once per
      item after its id was read. */
  method InsertPage(songs: set<Song>, items: seq<SavedTrack>)
    returns (songs': set<Song>, counted: nat, panicAt: Option<nat>)
    ensures panicAt.None? ==> forall i :: 0 <= i < |items| ==> items[i].track.id.Some?
    ensures panicAt.None? ==> songs' == songs + SongSet(items) && counted == |items|
    ensures panicAt.Some? ==> panicAt.value < |items| && items[panicAt.value].track.id.None?
    ensures panicAt.Some? ==> forall i :: 0 <= i < panicAt.value ==> items[i].track.id.Some?
    ensures panicAt.Some? ==> counted == panicAt.value
  {
    songs', counted := songs, 0;
    var j := 0;
    while j < |items|
      invariant 0 <= j <= |items|
      invariant forall i :: 0 <= i < j ==> items[i].track.id.Some?
      invariant songs' == songs + SongSet(items[..j])
      invariant counted == j
    {
      var track := items[j].track;
      if track.id.None? {
        panicAt := Some(j);
        return;
      }
      assert items[..j + 1][..j] == items[..j];
      counted := counted + 1;
      songs' := songs' + {SongOf(track)};
      j := j + 1;
    }
    assert items[..j] == items;
    panicAt := None;
  }

  /** A failed request after pages whose ids are all present is the last request, and
      the collection returns its error. */
  lemma CollectFails(fetch: Fetch<SavedTrack>, stop: nat, k: nat)
    requires Halts(fetch, Pipeline.PanicsOf(Convert), stop)
    requires k <= LastPage(fetch, Pipeline.PanicsOf(Convert), stop) && PageAt(fetch, k).Err?
    requires forall i :: 0 <= i < |ItemsBefore(fetch, k)| ==> ItemsBefore(fetch, k)[i].track.id.Some?
    ensures k == LastPage(fetch, Pipeline.PanicsOf(Convert), stop)
    ensures CollectOutcome(fetch, stop) == Returned(Err(PageAt(fetch, k).error))
  {
    Pipeline.EndsAtLastPage(fetch, Pipeline.PanicsOf(Convert), stop, k);
    NoPanicIn(ItemsBefore(fetch, k));
    Pipeline.WalkPageFails(fetch, Convert, stop, k);
  }

  /** The first missing id, on page k at position j, makes the collection panic. */
  lemma CollectPanics(fetch: Fetch<SavedTrack>, stop: nat, k: nat, j: nat)
    requires Halts(fetch, Pipeline.PanicsOf(Convert), stop)
    requires k <= LastPage(fetch, Pipeline.PanicsOf(Convert), stop) && PageAt(fetch, k).Ok?
    requires forall i :: 0 <= i < |ItemsBefore(fetch, k)| ==> ItemsBefore(fetch, k)[i].track.id.Some?
    requires j < |PageAt(fetch, k).value.items| && PageAt(fetch, k).value.items[j].track.id.None?
    requires forall i :: 0 <= i < j ==> PageAt(fetch, k).value.items[i].track.id.Some?
    ensures CollectOutcome(fetch, stop) == Panicked(UnwrapPanic)
  {
    var items := PageAt(fetch, k).value.items;
    NoPanicIn(ItemsBefore(fetch, k));
    NoPanicIn(items[..j]);
    assert forall i :: 0 <= i < j ==> items[..j][i] == items[i];
    Pipeline.WalkPanics(fetch, Convert, stop, k, j);
  }

  /** A delivered page without a successor, after pages whose ids are all present, ends
      the collection with the set of every received song. */
  lemma CollectCompletes(fetch: Fetch<SavedTrack>, stop: nat, k: nat)
    requires Halts(fetch, Pipeline.PanicsOf(Convert), stop)
    requires k <= LastPage(fetch, Pipeline.PanicsOf(Convert), stop)
    requires PageAt(fetch, k).Ok? && PageAt(fetch, k).value.next.None?
    requires forall i :: 0 <= i < |ItemsBefore(fetch, k)| ==> ItemsBefore(fetch, k)[i].track.id.Some?
    requires forall i :: 0 <= i < |PageAt(fetch, k).value.items| ==> PageAt(fetch, k).value.items[i].track.id.Some?
    ensures k == LastPage(fetch, Pipeline.PanicsOf(Convert), stop)
    ensures Received(fetch, Pipeline.PanicsOf(Convert), stop) == ItemsBefore(fetch, k) + PageAt(fetch, k).value.items
    ensures forall i :: 0 <= i < |Received(fetch, Pipeline.PanicsOf(Convert), stop)| ==>
      Received(fetch, Pipeline.PanicsOf(Convert), stop)[i].track.id.Some?
    ensures CollectOutcome(fetch, stop) == Returned(Ok(SongSet(Received(fetch, Pipeline.PanicsOf(Convert), stop))))
  {
    var items := PageAt(fetch, k).value.items;
    Pipeline.EndsAtLastPage(fetch, Pipeline.PanicsOf(Convert), stop, k);
    NoPanicIn(ItemsBefore(fetch, k));
    NoPanicIn(items);
    Pipeline.WalkCompletes(fetch, Convert, stop, k);
    SongSetAppend(ItemsBefore(fetch, k), items);
  }

  /** A delivered page with a successor and every id present is not the last page, and
      its items follow those of the pages before it. */
  lemma CollectContinues(fetch: Fetch<SavedTrack>, stop: nat, k: nat)
    requires Halts(fetch, Pipeline.PanicsOf(Convert), stop)
    requires k <= LastPage(fetch, Pipeline.PanicsOf(Convert), stop)
    requires PageAt(fetch, k).Ok? && PageAt(fetch, k).value.next.Some?
    requires forall i :: 0 <= i < |ItemsBefore(fetch, k)| ==> ItemsBefore(fetch, k)[i].track.id.Some?
    requires forall i :: 0 <= i < |PageAt(fetch, k).value.items| ==> PageAt(fetch, k).value.items[i].track.id.Some?
    ensures k < LastPage(fetch, Pipeline.PanicsOf(Convert), stop)
    ensures ItemsBefore(fetch, k + 1) == ItemsBefore(fetch, k) + PageAt(fetch, k).value.items
  {
    NoPanicIn(ItemsBefore(fetch, k));
    NoPanicIn(PageAt(fetch, k).value.items);
    Pipeline.WalkContinues(fetch, Convert, stop, k);
  }

  /** `get_from_liked` of src/main.rs, step by step. */
  method CollectLiked(fetch: Fetch<SavedTrack>, ghost stop: nat)
    returns (r: Exec<set<Song>>, requests: seq<(nat, nat)>, fetched: nat)
    requires Halts(fetch, Pipeline.PanicsOf(Convert), stop)
    ensures r == CollectOutcome(fetch, stop)
    ensures requests == Requests(|requests|) && 1 <= |requests| <= LastPage(fetch, Pipeline.PanicsOf(Convert), stop) + 1
    ensures !r.Panicked? ==> requests == Requests(LastPage(fetch, Pipeline.PanicsOf(Convert), stop) + 1)
    ensures r.IsOk() ==> fetched == |Received(fetch, Pipeline.PanicsOf(Convert), stop)| && |r.result.value| <= fetched
  {
    requests, fetched := [], 0;
    var songs: set<Song> := {};
    ghost var seen: seq<SavedTrack> := [];
    ghost var n := LastPage(fetch, Pipeline.PanicsOf(Convert), stop);
    var k: nat := 0;
    var offset: nat := 0;
    while true
      invariant k <= n
      invariant offset == Offset(k)
      invariant requests == Requests(k)
      invariant seen == ItemsBefore(fetch, k)
      invariant forall i :: 0 <= i < |seen| ==> seen[i].track.id.Some?
      invariant songs == SongSet(seen)
      invariant fetched == |seen|
      decreases n - k
    {
      var page := fetch(Limit, offset);
      RequestsNext(k);
      requests := requests + [(Limit, offset)];
      assert PageAt(fetch, k) == page;
      if page.Err? {
        CollectFails(fetch, stop, k);
        r := Returned(Err(page.error));
        return;
      }
      var items := page.value.items;
      var counted, panicAt;
      songs, counted, panicAt := InsertPage(songs, items);
      if panicAt.Some? {
        CollectPanics(fetch, stop, k, panicAt.value);
        r := Panicked(UnwrapPanic);
        return;
      }
      SongSetAppend(seen, items);
      fetched := fetched + counted;
      if page.value.next.None? {
        CollectCompletes(fetch, stop, k);
        SongSetSize(seen + items);
        r := Returned(Ok(songs));
        return;
      }
      CollectContinues(fetch, stop, k);
      seen := seen + items;
      k := k + 1;
      offset := offset + Limit;
    }
  }

  /** The bar counts every received item, so an item received twice (a track saved on two
      pages, say) leaves the collected set smaller than the count. */
  lemma RepeatCountedTwice(fetch: Fetch<SavedTrack>, stop: nat, i: nat, j: nat)
    requires Halts(fetch, Pipeline.PanicsOf(Convert), stop)
    requires CollectOutcome(fetch, stop).IsOk()
    requires i < j < |Received(fetch, Pipeline.PanicsOf(Convert), stop)| && Received(fetch, Pipeline.PanicsOf(Convert), stop)[i] == Received(fetch, Pipeline.PanicsOf(Convert), stop)[j]
    ensures |CollectOutcome(fetch, stop).result.value| < |Received(fetch, Pipeline.PanicsOf(Convert), stop)|
  {
    var items := Received(fetch, Pipeline.PanicsOf(Convert), stop);
    Pipeline.WalkNoPanic(fetch, Convert, stop);
    assert !Pipeline.Panics(Convert, items[i]);
    assert forall k :: 0 <= k < |items| ==> items[k].track.id.Some? by {
      forall k | 0 <= k < |items| ensures items[k].track.id.Some? {
        assert !Pipeline.Panics(Convert, items[k]);
      }
    }
    SongSetShrinks(items, i, j);
  }

  /** Items that all have an id never make the conversion panic. */
  lemma NoPanicIn(items: seq<SavedTrack>)
    requires forall i :: 0 <= i < |items| ==> items[i].track.id.Some?
    ensures forall i :: 0 <= i < |items| ==> !Pipeline.Panics(Convert, items[i])
  {
  }

  /** One iteration of the download loop: `images[0]`, the GET, reading the body and writing
      the file. Its `Ok` value is the file written. */
  function Attempt(song: Song, send: Send, store: Store): (r: Exec<(string, seq<Utf8.byte>)>)
    ensures r.Panicked? <==> song.images == []
    ensures r.Panicked? ==> r.message == IndexPanic
  {
    if song.images == [] then Panicked(IndexPanic)
    else
      var path := OutputPath(song.name, song.id);
      match send(song.images[0])
      case Err(e) => Returned(Err(e))
      case Ok(response) =>
        match response.body
        case Err(e) => Returned(Err(e))
        case Ok(data) =>
          match store(path, data)
          case Err(e) => Returned(Err(e))
          case Ok(_) => Returned(Ok((path, data)))
  }

  /** A successful attempt wrote the body it received to the song's own path. */
  lemma AttemptWrites(song: Song, send: Send, store: Store)
    requires Attempt(song, send, store).IsOk()
    ensures var w := Attempt(song, send, store).result.value;
      && w.0 == OutputPath(song.name, song.id)
      && ParsePath(w.0) == Some((song.name, song.id))
      && send(song.images[0]).Ok? && Ok(w.1) == send(song.images[0]).value.body
  {
    ParseOutputPath(song.name, song.id);
  }

  /** The download loop of `main`: one attempt per song, in any order; the bar advances
      before each attempt; the first failing attempt ends the loop with its outcome. The
      attempt is `Attempt` with the run's HTTP client and file system. */
  method DownloadAll<W>(songs: set<Song>, attempt: Song -> Exec<W>)
    returns (r: Exec<()>, progress: nat, written: set<W>)
    ensures r.IsOk() <==> forall s :: s in songs ==> attempt(s).IsOk()
    ensures r.IsOk() ==> progress == |songs|
    ensures r.IsOk() ==> forall s :: s in songs ==> attempt(s).result.value in written
    ensures forall w :: w in written ==> exists s :: s in songs && attempt(s) == Returned(Ok(w))
    ensures !r.IsOk() ==> 1 <= progress <= |songs|
    ensures r.Panicked? ==> exists s :: s in songs && attempt(s) == Panicked(r.message)
    ensures r.IsErr() ==> exists s :: s in songs && attempt(s) == Returned(Err(r.result.error))
  {
    var remaining := songs;
    progress, written := 0, {};
    while remaining != {}
      invariant remaining <= songs
      invariant progress + |remaining| == |songs|
      invariant forall s :: s in songs && s !in remaining ==> attempt(s).IsOk() && attempt(s).result.value in written
      invariant forall w :: w in written ==> exists s :: s in songs && attempt(s) == Returned(Ok(w))
      decreases |remaining|
    {
      var song :| song in remaining;
      progress := progress + 1;
      var a := attempt(song);
      if !a.IsOk() {
        r := Failed(a);
        return;
      }
      written := written + {a.result.value};
      remaining := remaining - {song};
    }
    r := Returned(Ok(()));
  }

  /** The run's outcome after a failed attempt. */
  function Failed<W>(a: Exec<W>): (r: Exec<()>)
    requires !a.IsOk()
    ensures r.Panicked? <==> a.Panicked?
    ensures r.Panicked? ==> a == Panicked(r.message)
    ensures r.IsErr() ==> a == Returned(Err(r.result.error))
  {
    if a.Panicked? then Panicked(a.message) else Returned(Err(a.result.error))
  }

  /** `main` after authentication: collect, then download. A collection failure is the
      run's outcome; otherwise the download loop decides it. */
  method Run(fetch: Fetch<SavedTrack>, ghost stop: nat, send: Send, store: Store)
    returns (r: Exec<()>, collected: Exec<set<Song>>, written: set<(string, seq<Utf8.byte>)>)
    requires Halts(fetch, Pipeline.PanicsOf(Convert), stop)
    ensures collected == CollectOutcome(fetch, stop)
    ensures collected.Panicked? ==> r == Panicked(UnwrapPanic) && written == {}
    ensures collected.IsErr() ==> r == Returned(Err(collected.result.error)) && written == {}
    ensures collected.IsOk() ==>
      (r.IsOk() <==> forall s :: s in collected.result.value ==> Attempt(s, send, store).IsOk())
    ensures collected.IsOk() && r.Panicked? ==>
      r.message == IndexPanic && exists s :: s in collected.result.value && s.images == []
    ensures collected.IsOk() && r.IsErr() ==>
      exists s :: s in collected.result.value && Attempt(s, send, store) == Returned(Err(r.result.error))
    ensures forall w :: w in written ==>
      exists s :: s in collected.result.value && Attempt(s, send, store) == Returned(Ok(w))
  {
    var requests, fetched;
    collected, requests, fetched := CollectLiked(fetch, stop);
    written := {};
    if collected.Panicked? {
      r := Panicked(collected.message);
      return;
    }
    if collected.result.Err? {
      r := Returned(Err(collected.result.error));
      return;
    }
    var progress;
    r, progress, written := DownloadAll(collected.result.value, (s: Song) => Attempt(s, send, store));
  }

  /** As written, a song whose album has no images panics the whole run: the loop indexes
      `images[0]` without a check, so the run never completes. */
  lemma ImagelessSongPanics(song: Song, send: Send, store: Store)
    requires song.images == []
    ensures Attempt(song, send, store) == Panicked(IndexPanic)
    ensures Attempt(Song("0", "", [], []), send, store).Panicked?
  {
  }

  /** The guarded attempt, as `download_image` in the library does it: a song without images
      is skipped with `Ok`. */
  function GuardedAttempt(song: Song, send: Send, store: Store): Exec<()>
  {
    Returned(DownloadImage(song, send, store).result)
  }

  /** The guarded attempt never panics, skips image-less songs, and otherwise succeeds
      exactly when the unguarded one does, writing the same file. */
  lemma GuardedAttemptNeverPanics(song: Song, send: Send, store: Store)
    ensures !GuardedAttempt(song, send, store).Panicked?
    ensures song.images == [] ==> GuardedAttempt(song, send, store) == Returned(Ok(()))
    ensures song.images != [] ==>
      (GuardedAttempt(song, send, store).IsOk() <==> Attempt(song, send, store).IsOk())
    ensures Attempt(song, send, store).IsOk() ==>
      DownloadImage(song, send, store).written == [Attempt(song, send, store).result.value]
  {
  }
}

=== FILE: library.dfy ===
/** The library's entry points (spotify-api/src/lib.rs): `get_from_liked`,
    `get_from_playlist` and `get_from_all_playlists`.

    A playlist is named by its id. Looking a playlist up, walking its tracks and listing
    the user's playlists are parameters: `lookup` answers the playlist lookup (its `Ok`
    value is the playlist's name), `fetchFor` is the track-page source of a playlist,
    `taskFor` is how the download tasks of a playlist's run resolve, and `stream` is what
    the playlist listing yields, entry by entry.
 */
module Library {
  import opened Outcomes
  import opened Paging
  import opened Songs
  import opened Pipeline

  /** `get_from_liked`: the saved tracks through `process_items`, every item converted with
      `Song::from`. */
  method GetFromLiked(fetch: Fetch<SavedTrack>, task: Tasks, ghost stop: nat)
    returns (r: Exec<()>, requests: seq<(nat, nat)>, handles: seq<Song>, fetched: nat)
    requires Halts(fetch, PanicsOf(FromSavedTrack), stop)
    ensures r == Outcome(fetch, FromSavedTrack, task, stop)
    ensures !r.Panicked? ==> requests == Requests(LastPage(fetch, PanicsOf(FromSavedTrack), stop) + 1)
    ensures !r.Panicked? ==> |handles| == fetched == |Received(fetch, PanicsOf(FromSavedTrack), stop)|
  {
    var joined, logged;
    r, requests, handles, fetched, joined, logged := ProcessItems(fetch, FromSavedTrack, task, stop);
    if !r.Panicked? {
      LikedNeverSkips(fetch, task, stop);
    }
  }

  /** A saved track is never skipped: unless the run panics, every received item gets a
      download task. */
  lemma LikedNeverSkips(fetch: Fetch<SavedTrack>, task: Tasks, stop: nat)
    requires Halts(fetch, PanicsOf(FromSavedTrack), stop)
    requires !Outcome(fetch, FromSavedTrack, task, stop).Panicked?
    ensures |Dispatched(FromSavedTrack, Received(fetch, PanicsOf(FromSavedTrack), stop))| == |Received(fetch, PanicsOf(FromSavedTrack), stop)|
  {
    var items := Received(fetch, PanicsOf(FromSavedTrack), stop);
    DispatchedMembers(FromSavedTrack, items);
    WalkNoPanic(fetch, FromSavedTrack, stop);
    assert forall i :: 0 <= i < |items| ==> FromSavedTrack(items[i]).IsOk() by {
      forall i | 0 <= i < |items|
        ensures FromSavedTrack(items[i]).IsOk()
      {
        assert !Panics(FromSavedTrack, items[i]);
      }
    }
  }

  /** The outcome of `get_from_playlist` for a playlist whose lookup answered `lookup`. The
      page source matters only when the lookup succeeds: a failed lookup walks no page. */
  function PlaylistOutcome(lookup: Result<string>, fetch: Fetch<PlaylistItem>,
                           task: Tasks, stop: nat): Exec<()>
    requires lookup.Ok? ==> Halts(fetch, PanicsOf(FromPlaylistItem), stop)
  {
    if lookup.Err? then Returned(Ok(())) else Outcome(fetch, FromPlaylistItem, task, stop)
  }

  /** A playlist run ends with `Ok` exactly when its lookup fails (the playlist is skipped),
      or when no received item panics in conversion, the last page request was delivered
      and every download task can be joined. */
  lemma PlaylistOutcomeOk(lookup: Result<string>, fetch: Fetch<PlaylistItem>,
                          task: Tasks, stop: nat)
    requires lookup.Ok? ==> Halts(fetch, PanicsOf(FromPlaylistItem), stop)
    ensures PlaylistOutcome(lookup, fetch, task, stop).IsOk() <==>
      || lookup.Err?
      || (&& (forall i :: 0 <= i < |Received(fetch, PanicsOf(FromPlaylistItem), stop)| ==> !Panics(FromPlaylistItem, Received(fetch, PanicsOf(FromPlaylistItem), stop)[i]))
          && PageAt(fetch, LastPage(fetch, PanicsOf(FromPlaylistItem), stop)).Ok?
          && (forall k :: 0 <= k < |Dispatched(FromPlaylistItem, Received(fetch, PanicsOf(FromPlaylistItem), stop))| ==>
                !task(k, Dispatched(FromPlaylistItem, Received(fetch, PanicsOf(FromPlaylistItem), stop))[k]).JoinFailed?))
  {
    if lookup.Ok? {
      OutcomeOk(fetch, FromPlaylistItem, task, stop);
    }
  }

  /** `get_from_playlist`: a failed lookup is logged and the playlist skipped with `Ok`,
      without walking any page; otherwise its tracks go through `process_items`. */
  method GetFromPlaylist(lookup: Result<string>, fetch: Fetch<PlaylistItem>,
                         task: Tasks, ghost stop: nat)
    returns (r: Exec<()>, requests: seq<(nat, nat)>)
    requires lookup.Ok? ==> Halts(fetch, PanicsOf(FromPlaylistItem), stop)
    ensures lookup.Err? ==> r == Returned(Ok(())) && requests == []
    ensures lookup.Ok? ==> r == Outcome(fetch, FromPlaylistItem, task, stop) && requests != []
    ensures lookup.Ok? && !r.Panicked? ==> requests == Requests(LastPage(fetch, PanicsOf(FromPlaylistItem), stop) + 1)
    ensures r == PlaylistOutcome(lookup, fetch, task, stop)
  {
    if lookup.Err? {
      return Returned(Ok(())), [];
    }
    var handles, fetched, joined, logged;
    r, requests, handles, fetched, joined, logged := ProcessItems(fetch, FromPlaylistItem, task, stop);
  }

  /** The page source of a listing entry needs to stop only when the entry is an id whose
      lookup succeeds: no other entry has its tracks walked. */
  ghost predicate EntryHalts(entry: Result<string>, lookup: string -> Result<string>,
                             fetchFor: string -> Fetch<PlaylistItem>, stopFor: string -> nat)
  {
    entry.Ok? && lookup(entry.value).Ok? ==> Halts(fetchFor(entry.value), PanicsOf(FromPlaylistItem), stopFor(entry.value))
  }

  /** What one listing entry contributes: the listing's own error, or the playlist run. */
  ghost function EntryOutcome(entry: Result<string>, lookup: string -> Result<string>,
                              fetchFor: string -> Fetch<PlaylistItem>, taskFor: string -> Tasks,
                              stopFor: string -> nat): Exec<()>
    requires EntryHalts(entry, lookup, fetchFor, stopFor)
  {
    if entry.Err? then Returned(Err(entry.error))
    else PlaylistOutcome(lookup(entry.value), fetchFor(entry.value), taskFor(entry.value), stopFor(entry.value))
  }

  /** Every page source the run reaches stops: the entries are visited in order up to the
      first one whose outcome is not `Ok`, and nothing is asked of the entries after it. */
  ghost predicate ReachedHalt(stream: seq<Result<string>>, lookup: string -> Result<string>,
                              fetchFor: string -> Fetch<PlaylistItem>, taskFor: string -> Tasks,
                              stopFor: string -> nat)
    decreases |stream|
  {
    || |stream| == 0
    || (&& EntryHalts(stream[0], lookup, fetchFor, stopFor)
        && (EntryOutcome(stream[0], lookup, fetchFor, taskFor, stopFor).IsOk() ==>
              ReachedHalt(stream[1..], lookup, fetchFor, taskFor, stopFor)))
  }

  /** The outcome of the whole run: the first entry outcome that is not `Ok`, otherwise
      `Ok`. */
  ghost function AllOutcome(stream: seq<Result<string>>, lookup: string -> Result<string>,
                            fetchFor: string -> Fetch<PlaylistItem>, taskFor: string -> Tasks,
                            stopFor: string -> nat): Exec<()>
    requires ReachedHalt(stream, lookup, fetchFor, taskFor, stopFor)
    decreases |stream|
  {
    if |stream| == 0 then Returned(Ok(()))
    else
      var e := EntryOutcome(stream[0], lookup, fetchFor, taskFor, stopFor);
      if e.IsOk() then AllOutcome(stream[1..], lookup, fetchFor, taskFor, stopFor) else e
  }

  /** The run ends with `Ok` exactly when every entry is an id whose playlist run ends
      with `Ok`. */
  lemma {:induction false} AllOutcomeOk(stream: seq<Result<string>>, lookup: string -> Result<string>,
                                        fetchFor: string -> Fetch<PlaylistItem>, taskFor: string -> Tasks,
                                        stopFor: string -> nat)
    requires ReachedHalt(stream, lookup, fetchFor, taskFor, stopFor)
    ensures AllOutcome(stream, lookup, fetchFor, taskFor, stopFor).IsOk() <==>
      forall i :: 0 <= i < |stream| ==>
        EntryHalts(stream[i], lookup, fetchFor, stopFor) && EntryOutcome(stream[i], lookup, fetchFor, taskFor, stopFor).IsOk()
    decreases |stream|
  {
    if |stream| > 0 && EntryOutcome(stream[0], lookup, fetchFor, taskFor, stopFor).IsOk() {
      AllOutcomeOk(stream[1..], lookup, fetchFor, taskFor, stopFor);
      assert forall i :: 1 <= i < |stream| ==> stream[i] == stream[1..][i - 1];
    }
  }

  /** The first entry whose outcome is not `Ok` decides the run, and the entries after it
      are never reached: their page sources need not stop. */
  lemma {:induction false} AllOutcomeFirstFailure(stream: seq<Result<string>>, lookup: string -> Result<string>,
                                                  fetchFor: string -> Fetch<PlaylistItem>, taskFor: string -> Tasks,
                                                  stopFor: string -> nat, f: nat)
    requires f < |stream|
    requires forall i :: 0 <= i < f ==>
      EntryHalts(stream[i], lookup, fetchFor, stopFor) && EntryOutcome(stream[i], lookup, fetchFor, taskFor, stopFor).IsOk()
    requires EntryHalts(stream[f], lookup, fetchFor, stopFor)
    requires !EntryOutcome(stream[f], lookup, fetchFor, taskFor, stopFor).IsOk()
    ensures ReachedHalt(stream, lookup, fetchFor, taskFor, stopFor)
    ensures AllOutcome(stream, lookup, fetchFor, taskFor, stopFor) == EntryOutcome(stream[f], lookup, fetchFor, taskFor, stopFor)
    decreases f
  {
    if f > 0 {
      assert forall i :: 0 <= i < f - 1 ==> stream[1..][i] == stream[i + 1];
      AllOutcomeFirstFailure(stream[1..], lookup, fetchFor, taskFor, stopFor, f - 1);
    }
  }

  /** The run from entry i on: entry i is reached, and either its outcome is `Ok` and the
      run goes on from entry i + 1, or its outcome is the run's. */
  lemma AllOutcomeStep(stream: seq<Result<string>>, lookup: string -> Result<string>,
                       fetchFor: string -> Fetch<PlaylistItem>, taskFor: string -> Tasks,
                       stopFor: string -> nat, i: nat)
    requires i < |stream| && ReachedHalt(stream[i..], lookup, fetchFor, taskFor, stopFor)
    ensures EntryHalts(stream[i], lookup, fetchFor, stopFor)
    ensures EntryOutcome(stream[i], lookup, fetchFor, taskFor, stopFor).IsOk() ==>
      && ReachedHalt(stream[i + 1..], lookup, fetchFor, taskFor, stopFor)
      && AllOutcome(stream[i..], lookup, fetchFor, taskFor, stopFor)
         == AllOutcome(stream[i + 1..], lookup, fetchFor, taskFor, stopFor)
    ensures !EntryOutcome(stream[i], lookup, fetchFor, taskFor, stopFor).IsOk() ==>
      AllOutcome(stream[i..], lookup, fetchFor, taskFor, stopFor)
      == EntryOutcome(stream[i], lookup, fetchFor, taskFor, stopFor)
  {
    assert stream[i..][0] == stream[i] && stream[i..][1..] == stream[i + 1..];
  }

  /** One turn of the listing loop: a listing error is returned as is (`playlist?`), an id
      goes through `get_from_playlist`. */
  method VisitEntry(entry: Result<string>, lookup: string -> Result<string>,
                    fetchFor: string -> Fetch<PlaylistItem>, taskFor: string -> Tasks,
                    ghost stopFor: string -> nat)
    returns (r: Exec<()>)
    requires EntryHalts(entry, lookup, fetchFor, stopFor)
    ensures r == EntryOutcome(entry, lookup, fetchFor, taskFor, stopFor)
    ensures entry.Err? ==> r == Returned(Err(entry.error))
    ensures entry.Ok? && lookup(entry.value).Err? ==> r == Returned(Ok(()))
  {
    if entry.Err? {
      return Returned(Err(entry.error));
    }
    var id := entry.value;
    var requests;
    r, requests := GetFromPlaylist(lookup(id), fetchFor(id), taskFor(id), stopFor(id));
  }

  /** The turn of the listing loop at entry i: an `Ok` outcome came from an id and the run
      goes on from entry i + 1; any other outcome is the outcome of the run from entry i. */
  method VisitNext(stream: seq<Result<string>>, lookup: string -> Result<string>,
                   fetchFor: string -> Fetch<PlaylistItem>, taskFor: string -> Tasks,
                   ghost stopFor: string -> nat, i: nat)
    returns (r: Exec<()>)
    requires i < |stream| && ReachedHalt(stream[i..], lookup, fetchFor, taskFor, stopFor)
    ensures r.IsOk() ==>
      && stream[i].Ok?
      && ReachedHalt(stream[i + 1..], lookup, fetchFor, taskFor, stopFor)
      && AllOutcome(stream[i..], lookup, fetchFor, taskFor, stopFor)
         == AllOutcome(stream[i + 1..], lookup, fetchFor, taskFor, stopFor)
    ensures !r.IsOk() ==> r == AllOutcome(stream[i..], lookup, fetchFor, taskFor, stopFor)
  {
    AllOutcomeStep(stream, lookup, fetchFor, taskFor, stopFor, i);
    r := VisitEntry(stream[i], lookup, fetchFor, taskFor, stopFor);
  }

  /** `get_from_all_playlists`: the playlists one after another in listing order; the
      first listing error or failing playlist run ends the whole run with its outcome.
      `visited` lists the ids whose playlist was looked up. */
  method GetFromAllPlaylists(stream: seq<Result<string>>, lookup: string -> Result<string>,
                             fetchFor: string -> Fetch<PlaylistItem>, taskFor: string -> Tasks,
                             ghost stopFor: string -> nat)
    returns (r: Exec<()>, visited: seq<string>)
    requires ReachedHalt(stream, lookup, fetchFor, taskFor, stopFor)
    ensures r == AllOutcome(stream, lookup, fetchFor, taskFor, stopFor)
    ensures |visited| <= |stream|
    ensures forall j :: 0 <= j < |visited| ==> stream[j] == Ok(visited[j])
    ensures r.IsOk() ==> |visited| == |stream|
  {
    visited := [];
    var i := 0;
    assert stream[i..] == stream;
    while i < |stream|
      invariant i <= |stream| && |visited| == i
      invariant forall j :: 0 <= j < i ==> stream[j] == Ok(visited[j])
      invariant ReachedHalt(stream[i..], lookup, fetchFor, taskFor, stopFor)
      invariant AllOutcome(stream, lookup, fetchFor, taskFor, stopFor)
             == AllOutcome(stream[i..], lookup, fetchFor, taskFor, stopFor)
    {
      var entry := stream[i];
      var result := VisitNext(stream, lookup, fetchFor, taskFor, stopFor, i);
      if entry.Ok? {
        visited := visited + [entry.value];
      }
      if !result.IsOk() {
        return result, visited;
      }
      i := i + 1;
    }
    r := Returned(Ok(()));
  }
}

=== FILE: ordering.dfy ===
/** Python's ordering of `str` values and `sorted` over a list of them (app.py sorts the
    image directory's listing).

    Strings compare lexicographically by code point, a proper prefix first. `Sort` is an
    insertion sort; `sorted` is a stable merge sort, and both give the only ascending
    arrangement of the same elements (`SortedUnique`).
 */
module Ordering {

  /** `a <= b` on Python strings. */
  predicate LessEq(a: string, b: string)
  {
    |a| == 0 || (|b| > 0 && (a[0] < b[0] || (a[0] == b[0] && LessEq(a[1..], b[1..]))))
  }

  lemma {:induction false} LessEqTotal(a: string, b: string)
    ensures LessEq(a, b) || LessEq(b, a)
  {
    if |a| > 0 && |b| > 0 && a[0] == b[0] {
      LessEqTotal(a[1..], b[1..]);
    }
  }

  lemma {:induction false} LessEqTransitive(a: string, b: string, c: string)
    requires LessEq(a, b) && LessEq(b, c)
    ensures LessEq(a, c)
  {
    if |a| > 0 && a[0] == b[0] && b[0] == c[0] {
      LessEqTransitive(a[1..], b[1..], c[1..]);
    }
  }

  lemma {:induction false} LessEqAntisymmetric(a: string, b: string)
    requires LessEq(a, b) && LessEq(b, a)
    ensures a == b
  {
    if |a| > 0 {
      LessEqAntisymmetric(a[1..], b[1..]);
      assert a == [a[0]] + a[1..] && b == [b[0]] + b[1..];
    }
  }

  predicate Sorted(s: seq<string>)
  {
    forall i, j :: 0 <= i < j < |s| ==> LessEq(s[i], s[j])
  }

  /** An element at most the first of an ascending sequence is at most all of them. */
  lemma BelowHead(x: string, s: seq<string>)
    requires Sorted(s) && |s| > 0 && LessEq(x, s[0])
    ensures forall j :: 0 <= j < |s| ==> LessEq(x, s[j])
  {
    forall j | 0 <= j < |s| ensures LessEq(x, s[j]) {
      if j > 0 { LessEqTransitive(x, s[0], s[j]); }
    }
  }

  /** The tail of an ascending sequence is ascending and follows its head. */
  lemma SortedTail(s: seq<string>)
    requires Sorted(s) && |s| > 0
    ensures Sorted(s[1..])
    ensures forall j :: 0 <= j < |s[1..]| ==> LessEq(s[0], s[1..][j])
  {
    assert forall j :: 0 <= j < |s[1..]| ==> s[1..][j] == s[j + 1];
  }

  /** A lower bound of `t` and `x` bounds every arrangement of their elements. */
  lemma BelowAll(y: string, x: string, t: seq<string>, r: seq<string>)
    requires LessEq(y, x) && forall j :: 0 <= j < |t| ==> LessEq(y, t[j])
    requires multiset(r) == multiset(t) + multiset{x}
    ensures forall j :: 0 <= j < |r| ==> LessEq(y, r[j])
  {
    forall j | 0 <= j < |r| ensures LessEq(y, r[j]) {
      assert r[j] in multiset(r);
      if r[j] != x {
        assert r[j] in multiset(t);
        var k :| 0 <= k < |t| && t[k] == r[j];
      }
    }
  }

  /** Putting a lower bound in front of an ascending sequence keeps it ascending. */
  lemma ConsSorted(y: string, t: seq<string>)
    requires Sorted(t) && forall j :: 0 <= j < |t| ==> LessEq(y, t[j])
    ensures Sorted([y] + t)
  {
    var r := [y] + t;
    assert forall j :: 1 <= j < |r| ==> r[j] == t[j - 1];
  }

  /** Inserts `x` before the first element it does not follow. */
  function Insert(x: string, s: seq<string>): (r: seq<string>)
    requires Sorted(s)
    ensures Sorted(r)
    ensures multiset(r) == multiset(s) + multiset{x}
  {
    if |s| == 0 then [x]
    else if LessEq(x, s[0]) then
      BelowHead(x, s);
      ConsSorted(x, s);
      [x] + s
    else
      SortedTail(s);
      var rest := Insert(x, s[1..]);
      LessEqTotal(x, s[0]);
      BelowAll(s[0], x, s[1..], rest);
      ConsSorted(s[0], rest);
      assert s == [s[0]] + s[1..];
      [s[0]] + rest
  }

  /** `sorted(s)`. */
  function Sort(s: seq<string>): (r: seq<string>)
    ensures Sorted(r)
    ensures multiset(r) == multiset(s)
  {
    if |s| == 0 then []
    else
      assert s == [s[0]] + s[1..];
      Insert(s[0], Sort(s[1..]))
  }

  lemma {:induction false} LessEqReflexive(a: string)
    ensures LessEq(a, a)
  {
    if |a| > 0 {
      LessEqReflexive(a[1..]);
    }
  }

  /** The first element of an ascending sequence is at most each of its elements. */
  lemma SortedHeadIsLeast(s: seq<string>, x: string)
    requires Sorted(s) && x in multiset(s)
    ensures LessEq(s[0], x)
  {
    var i :| 0 <= i < |s| && s[i] == x;
    if i == 0 {
      LessEqReflexive(x);
    }
  }

  lemma MultisetTail(s: seq<string>)
    requires |s| > 0
    ensures multiset(s[1..]) == multiset(s) - multiset{s[0]}
  {
    assert s == [s[0]] + s[1..];
  }

  /** Two ascending arrangements of the same elements start with the same element. */
  lemma SortedHeads(a: seq<string>, b: seq<string>)
    requires Sorted(a) && Sorted(b)
    requires multiset(a) == multiset(b) && |a| > 0
    ensures |b| > 0 && a[0] == b[0]
  {
    assert a[0] in multiset(b);
    assert b[0] in multiset(a);
    SortedHeadIsLeast(a, b[0]);
    SortedHeadIsLeast(b, a[0]);
    LessEqAntisymmetric(a[0], b[0]);
  }

  /** Two ascending arrangements of the same elements are the same sequence. */
  lemma {:induction false} SortedUnique(a: seq<string>, b: seq<string>)
    requires Sorted(a) && Sorted(b)
    requires multiset(a) == multiset(b)
    ensures a == b
    decreases |a|
  {
    if |a| == 0 {
      assert |b| == |multiset(b)| == 0;
    } else {
      SortedHeads(a, b);
      MultisetTail(a);
      MultisetTail(b);
      SortedUnique(a[1..], b[1..]);
      assert a == [a[0]] + a[1..] && b == [b[0]] + b[1..];
    }
  }
}

=== FILE: outcomes.dfy ===
/** The ways a call in the downloader can end.

    A Rust function that returns `anyhow::Result<T>` either returns `Ok`, returns `Err`
    carrying an error chain, or panics (`unwrap` on `None`, `todo!()`, `unreachable!()`,
    an out-of-bounds index). `Result` models the first two, `Exec` adds the third.
 */
module Outcomes {

  /** An `anyhow::Error`: the chain of messages, outermost context first. */
  type Error = seq<string>

  datatype Option<+T> = None | Some(value: T)

  datatype Result<+T> = Ok(value: T) | Err(error: Error)

  /** Either the call returned (successfully or not) or it panicked. */
  datatype Exec<+T> = Returned(result: Result<T>) | Panicked(message: string)
  {
    predicate IsOk() { Returned? && result.Ok? }
    predicate IsErr() { Returned? && result.Err? }
  }

  /** `anyhow::Context::context`: wraps an error with an outer message, leaves `Ok` alone. */
  function WithContext<T>(r: Result<T>, context: string): (r': Result<T>)
    ensures r.Ok? <==> r'.Ok?
    ensures r.Ok? ==> r' == r
    ensures r.Err? ==> r'.error == [context] + r.error
  {
    match r
    case Ok(v) => Ok(v)
    case Err(e) => Err([context] + e)
  }

  /** The plain message of a freshly created error (`anyhow!(...)`). */
  function Fail<T>(message: string): Result<T>
  {
    Err([message])
  }

  /** The first position of `s` whose element satisfies `p`. */
  function FirstWhere<T>(s: seq<T>, p: T -> bool): (r: Option<nat>)
    ensures r.Some? ==> r.value < |s| && p(s[r.value])
  {
    if |s| == 0 then None
    else if p(s[0]) then Some(0)
    else match FirstWhere(s[1..], p)
      case None => None
      case Some(i) => Some(i + 1)
  }

  /** No position is found exactly when no element satisfies `p`. */
  lemma {:induction false} FirstWhereNone<T>(s: seq<T>, p: T -> bool)
    ensures FirstWhere(s, p).None? <==> forall j :: 0 <= j < |s| ==> !p(s[j])
  {
    if |s| > 0 && !p(s[0]) {
      FirstWhereNone(s[1..], p);
      assert forall j :: 1 <= j < |s| ==> s[j] == s[1..][j - 1];
    }
  }

  /** No element before the position found satisfies `p`. */
  lemma {:induction false} FirstWhereMinimal<T>(s: seq<T>, p: T -> bool)
    requires FirstWhere(s, p).Some?
    ensures forall j :: 0 <= j < FirstWhere(s, p).value ==> !p(s[j])
  {
    if !p(s[0]) {
      FirstWhereMinimal(s[1..], p);
      assert forall j :: 1 <= j < |s| ==> s[j] == s[1..][j - 1];
    }
  }

  /** A position that satisfies `p` after positions that do not is the first one. */
  lemma {:induction false} FirstWhereAt<T>(s: seq<T>, p: T -> bool, i: nat)
    requires i < |s| && p(s[i])
    requires forall j :: 0 <= j < i ==> !p(s[j])
    ensures FirstWhere(s, p) == Some(i)
  {
    if i > 0 {
      FirstWhereAt(s[1..], p, i - 1);
    }
  }
}

=== FILE: paging.dfy ===
/** The page source both collectors walk (spotify-api/src/lib.rs `process_items`,
    src/main.rs `get_from_liked`).

    Pages are requested with a fixed limit of 50 at offsets 0, 50, 100, ... and the walk
    ends at a page whose `next` is `None`, never at an empty page as such: past the end the
    service keeps answering with empty pages. A failed request ends the walk too.

    The walk also ends inside a page, at an item whose handling panics (`ends`): the
    collectors unwrap a missing track id while they go through a page's items.

    The source is a function from `(limit, offset)` to a page or an error. A walk over a
    source that never announces an end, and holds no item that ends it, does not
    terminate in the original either; the model asks for a page index `stop` at which the
    walk is known to end (`Halts`).
 */
module Paging {
  import opened Outcomes

  const Limit: nat := 50

  datatype Page<T> = Page(items: seq<T>, total: nat, next: Option<string>)

  type Fetch<T> = (nat, nat) -> Result<Page<T>>

  /** The offset of the k-th request (0-based). */
  function Offset(k: nat): nat
  {
    Limit * k
  }

  /** The answer to the k-th request. */
  function PageAt<T>(fetch: Fetch<T>, k: nat): Result<Page<T>>
  {
    fetch(Limit, Offset(k))
  }

  /** Some item of the page ends the walk. */
  predicate HoldsEnd<T>(page: Page<T>, ends: T -> bool)
  {
    FirstWhere(page.items, ends).Some?
  }

  /** The walk ends at page k: the request failed, the page has no successor, or one of
      its items ends the walk. */
  predicate Halts<T>(fetch: Fetch<T>, ends: T -> bool, k: nat)
  {
    PageAt(fetch, k).Err? || PageAt(fetch, k).value.next.None? || HoldsEnd(PageAt(fetch, k).value, ends)
  }

  function FirstHaltFrom<T>(fetch: Fetch<T>, ends: T -> bool, k: nat, stop: nat): (n: nat)
    requires k <= stop && Halts(fetch, ends, stop)
    requires forall j :: 0 <= j < k ==> !Halts(fetch, ends, j)
    ensures k <= n <= stop && Halts(fetch, ends, n)
    ensures forall j :: 0 <= j < n ==> !Halts(fetch, ends, j)
    decreases stop - k
  {
    if Halts(fetch, ends, k) then k else FirstHaltFrom(fetch, ends, k + 1, stop)
  }

  /** The index of the last page the walk requests. Every earlier page was delivered,
      announced a successor and held no item that ends the walk, however many items it
      had. */
  function LastPage<T>(fetch: Fetch<T>, ends: T -> bool, stop: nat): (n: nat)
    requires Halts(fetch, ends, stop)
    ensures n <= stop && Halts(fetch, ends, n)
    ensures forall j :: 0 <= j < n ==>
      PageAt(fetch, j).Ok? && PageAt(fetch, j).value.next.Some? && !HoldsEnd(PageAt(fetch, j).value, ends)
  {
    var n := FirstHaltFrom(fetch, ends, 0, stop);
    assert forall j :: 0 <= j < n ==>
      PageAt(fetch, j).Ok? && PageAt(fetch, j).value.next.Some? && !HoldsEnd(PageAt(fetch, j).value, ends) by {
      forall j | 0 <= j < n
        ensures PageAt(fetch, j).Ok? && PageAt(fetch, j).value.next.Some? && !HoldsEnd(PageAt(fetch, j).value, ends)
      {
        assert !Halts(fetch, ends, j);
      }
    }
    n
  }

  /** The requests the first m steps of the walk make, in order. */
  function Requests(m: nat): (rs: seq<(nat, nat)>)
    ensures |rs| == m
    ensures forall k :: 0 <= k < m ==> rs[k] == (Limit, Offset(k))
  {
    seq(m, k requires 0 <= k => (Limit, Offset(k)))
  }

  /** Each step of the walk adds the next request. */
  lemma RequestsNext(k: nat)
    ensures Requests(k + 1) == Requests(k) + [(Limit, Offset(k))]
  {
    assert forall i :: 0 <= i < k ==> Requests(k + 1)[i] == Requests(k)[i];
  }

  /** The items of the first k pages, in page order. */
  function ItemsBefore<T>(fetch: Fetch<T>, k: nat): seq<T>
    requires forall j :: 0 <= j < k ==> PageAt(fetch, j).Ok?
  {
    if k == 0 then [] else ItemsBefore(fetch, k - 1) + PageAt(fetch, k - 1).value.items
  }

  /** How many pages the walk receives: all up to the last one, which is missing when
      its request failed. */
  function PagesReceived<T>(fetch: Fetch<T>, ends: T -> bool, stop: nat): (m: nat)
    requires Halts(fetch, ends, stop)
    ensures forall j :: 0 <= j < m ==> PageAt(fetch, j).Ok?
  {
    var n := LastPage(fetch, ends, stop);
    if PageAt(fetch, n).Ok? then n + 1 else n
  }

  /** Every item the walk receives, in the order it receives them. */
  function Received<T>(fetch: Fetch<T>, ends: T -> bool, stop: nat): seq<T>
    requires Halts(fetch, ends, stop)
  {
    ItemsBefore(fetch, PagesReceived(fetch, ends, stop))
  }

  /** The items of an earlier prefix of pages come first. */
  lemma {:induction false} ItemsBeforePrefix<T>(fetch: Fetch<T>, a: nat, b: nat)
    requires a <= b
    requires forall j :: 0 <= j < b ==> PageAt(fetch, j).Ok?
    ensures |ItemsBefore(fetch, a)| <= |ItemsBefore(fetch, b)|
    ensures ItemsBefore(fetch, b)[..|ItemsBefore(fetch, a)|] == ItemsBefore(fetch, a)
    decreases b - a
  {
    if a < b {
      ItemsBeforePrefix(fetch, a, b - 1);
      var x := ItemsBefore(fetch, b - 1);
      assert ItemsBefore(fetch, b) == x + PageAt(fetch, b - 1).value.items;
      assert (x + PageAt(fetch, b - 1).value.items)[..|x|] == x;
    }
  }

  /** An empty page that announces a successor never ends the walk. */
  lemma EmptyPageDoesNotStop<T>(fetch: Fetch<T>, ends: T -> bool, stop: nat, k: nat)
    requires Halts(fetch, ends, stop)
    requires PageAt(fetch, k).Ok? && PageAt(fetch, k).value.items == []
    requires PageAt(fetch, k).value.next.Some?
    ensures k != LastPage(fetch, ends, stop)
    ensures k < LastPage(fetch, ends, stop) ==> ItemsBefore(fetch, k + 1) == ItemsBefore(fetch, k)
  {
    if k < LastPage(fetch, ends, stop) {
      assert ItemsBefore(fetch, k + 1) == ItemsBefore(fetch, k) + [];
    }
  }
}

=== FILE: pipeline.dfy ===
/** The library's orchestrator, `process_items` (spotify-api/src/lib.rs).

    It walks the page source (module Paging), converts every item it receives, spawns one
    download task per converted song and counts every item on the fetch progress bar,
    converted or skipped. A conversion error is logged and the item skipped; a conversion
    panic ends the run; a failed page request ends the run with `Err` before any task is
    awaited. After the last page every task is awaited in spawn order: a task's own error
    is only logged, and only a failure to join a task (the task panicked or was cancelled)
    makes the run fail.

    Tasks are not run concurrently here. A task is represented by the song it was spawned
    for, and `task` says what awaiting it yields, from its spawn position and its song.

    `Outcome` states the run's result from the whole page sequence at once; the method
    `ProcessItems` follows the original loop step by step and is proved to agree with it.
 */
module Pipeline {
  import opened Outcomes
  import opened Paging
  import opened Songs
  import Download

  /** What awaiting a spawned task yields. */
  datatype TaskResult = Finished(result: Result<()>) | JoinFailed(error: Error)

  /** What awaiting each spawned task yields, given its spawn position and its song: two
      tasks for equal songs may end differently. */
  type Tasks = (nat, Song) -> TaskResult

  const FetchFailed: string := "Failed to fetch page"

  /** The songs that get a download task: those whose conversion returned `Ok`, in item
      order. */
  function Dispatched<Item>(convert: Item -> Exec<Song>, items: seq<Item>): (songs: seq<Song>)
    ensures |songs| <= |items|
  {
    if |items| == 0 then []
    else
      var init := items[..|items| - 1];
      var last := items[|items| - 1];
      var rest := Dispatched(convert, init);
      if convert(last).IsOk() then rest + [convert(last).result.value] else rest
  }

  /** A song is dispatched exactly when some item converts to it; when every item
      converts, every item is dispatched. */
  lemma {:induction false} DispatchedMembers<Item>(convert: Item -> Exec<Song>, items: seq<Item>)
    ensures forall s :: s in Dispatched(convert, items) <==>
      exists i :: 0 <= i < |items| && convert(items[i]) == Returned(Ok(s))
    ensures (forall i :: 0 <= i < |items| ==> convert(items[i]).IsOk()) ==> |Dispatched(convert, items)| == |items|
    decreases |items|
  {
    if |items| > 0 {
      var init := items[..|items| - 1];
      DispatchedMembers(convert, init);
      assert forall i :: 0 <= i < |init| ==> init[i] == items[i];
      forall s | s in Dispatched(convert, items)
        ensures exists i :: 0 <= i < |items| && convert(items[i]) == Returned(Ok(s))
      {
        if s !in Dispatched(convert, init) {
          assert convert(items[|items| - 1]) == Returned(Ok(s));
        }
      }
    }
  }

  /** The positions of the items whose conversion returned `Ok`, in item order. */
  function OkPositions<Item>(convert: Item -> Exec<Song>, items: seq<Item>): seq<nat>
  {
    if |items| == 0 then []
    else
      var n := |items| - 1;
      OkPositions(convert, items[..n]) + (if convert(items[n]).IsOk() then [n] else [])
  }

  /** The positions that convert increase, and a position appears exactly when its item
      converts. */
  lemma {:induction false} OkPositionsShape<Item>(convert: Item -> Exec<Song>, items: seq<Item>)
    ensures var idx := OkPositions(convert, items);
      && (forall k :: 0 <= k < |idx| ==> idx[k] < |items|)
      && (forall k, l :: 0 <= k < l < |idx| ==> idx[k] < idx[l])
      && (forall i :: 0 <= i < |items| ==> (convert(items[i]).IsOk() <==> i in idx))
    decreases |items|
  {
    if |items| > 0 {
      var n := |items| - 1;
      var init := items[..n];
      OkPositionsShape(convert, init);
      assert forall i :: 0 <= i < n ==> init[i] == items[i];
    }
  }

  /** The k-th dispatched song is the song of the item at the k-th converting position. */
  lemma {:induction false} DispatchedAt<Item>(convert: Item -> Exec<Song>, items: seq<Item>)
    ensures var songs, idx := Dispatched(convert, items), OkPositions(convert, items);
      && |songs| == |idx|
      && forall k :: 0 <= k < |idx| ==> idx[k] < |items| && convert(items[idx[k]]) == Returned(Ok(songs[k]))
    decreases |items|
  {
    if |items| > 0 {
      var n := |items| - 1;
      var init := items[..n];
      DispatchedAt(convert, init);
      var idx := OkPositions(convert, items);
      var songs := Dispatched(convert, items);
      var idx0 := OkPositions(convert, init);
      forall k | 0 <= k < |idx|
        ensures idx[k] < |items| && convert(items[idx[k]]) == Returned(Ok(songs[k]))
      {
        if k < |idx0| {
          assert idx[k] == idx0[k] && songs[k] == Dispatched(convert, init)[k];
          assert items[idx[k]] == init[idx0[k]];
        }
      }
    }
  }

  /** The dispatched songs are the successful conversions, each once and in item order:
      the k-th song comes from the k-th item that converts, the positions increase, and a
      position appears exactly when its item converts. */
  lemma DispatchedInOrder<Item>(convert: Item -> Exec<Song>, items: seq<Item>)
    ensures var songs, idx := Dispatched(convert, items), OkPositions(convert, items);
      && |songs| == |idx|
      && (forall k :: 0 <= k < |idx| ==> idx[k] < |items| && convert(items[idx[k]]) == Returned(Ok(songs[k])))
      && (forall k, l :: 0 <= k < l < |idx| ==> idx[k] < idx[l])
      && (forall i :: 0 <= i < |items| ==> (convert(items[i]).IsOk() <==> i in idx))
  {
    OkPositionsShape(convert, items);
    DispatchedAt(convert, items);
  }

  /** One task per item whose conversion returned `Ok`. */
  lemma {:induction false} DispatchedCount<Item>(convert: Item -> Exec<Song>, items: seq<Item>)
    ensures |Dispatched(convert, items)| == |set i | 0 <= i < |items| && convert(items[i]).IsOk()|
    decreases |items|
  {
    if |items| > 0 {
      var n := |items| - 1;
      var init := items[..n];
      DispatchedCount(convert, init);
      var before := set i | 0 <= i < |init| && convert(init[i]).IsOk();
      var after := set i | 0 <= i < |items| && convert(items[i]).IsOk();
      assert forall i :: 0 <= i < n ==> init[i] == items[i];
      if convert(items[n]).IsOk() {
        assert after == before + {n};
      } else {
        assert after == before;
      }
    }
  }

  /** The task errors that the drain logs, in the order the tasks are awaited. */
  function TaskErrors(handles: seq<Song>, task: Tasks): seq<Error>
  {
    if |handles| == 0 then []
    else
      var n := |handles| - 1;
      var rest := TaskErrors(handles[..n], task);
      match task(n, handles[n])
      case Finished(Err(e)) => rest + [e]
      case _ => rest
  }

  /** What awaiting the spawned tasks yields, in spawn order. */
  function Results(handles: seq<Song>, task: Tasks): (rs: seq<TaskResult>)
    ensures |rs| == |handles|
    ensures forall i :: 0 <= i < |handles| ==> rs[i] == task(i, handles[i])
  {
    seq(|handles|, i requires 0 <= i < |handles| => task(i, handles[i]))
  }

  predicate NotJoined(t: TaskResult)
  {
    t.JoinFailed?
  }

  /** Awaiting every task in order: `Err` of the first join failure, `Ok` otherwise, however
      many tasks ended in their own error. */
  function Drain(handles: seq<Song>, task: Tasks): Result<()>
  {
    match FirstWhere(Results(handles, task), NotJoined)
    case Some(i) => Err(task(i, handles[i]).error)
    case None => Ok(())
  }

  predicate Panics<Item>(convert: Item -> Exec<Song>, item: Item)
  {
    convert(item).Panicked?
  }

  /** The items that end the walk: those whose conversion panics. */
  function PanicsOf<Item>(convert: Item -> Exec<Song>): Item -> bool
  {
    (i: Item) => Panics(convert, i)
  }

  /** A page without a panicking item holds nothing that ends the walk. */
  lemma NoPanicNoEnd<Item>(page: Page<Item>, convert: Item -> Exec<Song>)
    requires forall i :: 0 <= i < |page.items| ==> !Panics(convert, page.items[i])
    ensures !HoldsEnd(page, PanicsOf(convert))
  {
    FirstWhereNone(page.items, PanicsOf(convert));
  }

  /** The position of the first item whose conversion panics. */
  function FirstPanic<Item>(convert: Item -> Exec<Song>, items: seq<Item>): Option<nat>
  {
    FirstWhere(items, PanicsOf(convert))
  }

  /** How the page walk ends: every page delivered without a conversion panic, a failed
      request, or the first conversion panic with its message. */
  datatype WalkEnd = Completed | PageFailed(error: Error) | ConversionPanicked(message: string)

  /** The end of the walk, from everything it receives: the first conversion panic if
      there is one, otherwise the page error if the last request failed. */
  function Walk<Item>(fetch: Fetch<Item>, convert: Item -> Exec<Song>, stop: nat): WalkEnd
    requires Halts(fetch, PanicsOf(convert), stop)
  {
    var items := Received(fetch, PanicsOf(convert), stop);
    var last := PageAt(fetch, LastPage(fetch, PanicsOf(convert), stop));
    match FirstPanic(convert, items)
    case Some(p) => ConversionPanicked(convert(items[p]).message)
    case None => if last.Err? then PageFailed(last.error) else Completed
  }

  /** Unless the walk ends in a panic, no received item panics, and a completed walk
      delivered its last page. */
  lemma WalkNoPanic<Item>(fetch: Fetch<Item>, convert: Item -> Exec<Song>, stop: nat)
    requires Halts(fetch, PanicsOf(convert), stop)
    ensures !Walk(fetch, convert, stop).ConversionPanicked? <==>
      forall i :: 0 <= i < |Received(fetch, PanicsOf(convert), stop)| ==> !Panics(convert, Received(fetch, PanicsOf(convert), stop)[i])
    ensures Walk(fetch, convert, stop).Completed? <==>
      !Walk(fetch, convert, stop).ConversionPanicked? && PageAt(fetch, LastPage(fetch, PanicsOf(convert), stop)).Ok?
  {
    FirstWhereNone(Received(fetch, PanicsOf(convert), stop), PanicsOf(convert));
  }

  /** The result of a run: the walk's panic or page error, otherwise the drain's result. */
  function Outcome<Item>(fetch: Fetch<Item>, convert: Item -> Exec<Song>,
                         task: Tasks, stop: nat): Exec<()>
    requires Halts(fetch, PanicsOf(convert), stop)
  {
    match Walk(fetch, convert, stop)
    case ConversionPanicked(m) => Panicked(m)
    case PageFailed(e) => Returned(Err([FetchFailed] + e))
    case Completed => Returned(Drain(Dispatched(convert, Received(fetch, PanicsOf(convert), stop)), task))
  }

  /** A run ends with `Ok` exactly when no received item panics in conversion, the last
      page request was delivered, and every dispatched task can be joined; a task's own
      error does not count against the run. */
  lemma OutcomeOk<Item>(fetch: Fetch<Item>, convert: Item -> Exec<Song>,
                        task: Tasks, stop: nat)
    requires Halts(fetch, PanicsOf(convert), stop)
    ensures Outcome(fetch, convert, task, stop).IsOk() <==>
      && (forall i :: 0 <= i < |Received(fetch, PanicsOf(convert), stop)| ==> !Panics(convert, Received(fetch, PanicsOf(convert), stop)[i]))
      && PageAt(fetch, LastPage(fetch, PanicsOf(convert), stop)).Ok?
      && (forall k :: 0 <= k < |Dispatched(convert, Received(fetch, PanicsOf(convert), stop))| ==>
            !task(k, Dispatched(convert, Received(fetch, PanicsOf(convert), stop))[k]).JoinFailed?)
  {
    WalkNoPanic(fetch, convert, stop);
    var handles := Dispatched(convert, Received(fetch, PanicsOf(convert), stop));
    FirstWhereNone(Results(handles, task), NotJoined);
    if Walk(fetch, convert, stop).Completed? {
      assert Outcome(fetch, convert, task, stop) == Returned(Drain(handles, task));
      assert handles == Dispatched(convert, Received(fetch, PanicsOf(convert), stop));
    }
  }

  /** The received items start with the items of every page up to k. */
  lemma ReceivedPrefix<Item>(fetch: Fetch<Item>, ends: Item -> bool, stop: nat, k: nat)
    requires Halts(fetch, ends, stop)
    requires k <= LastPage(fetch, ends, stop) && PageAt(fetch, k).Ok?
    ensures forall j :: 0 <= j <= k ==> PageAt(fetch, j).Ok?
    ensures |ItemsBefore(fetch, k + 1)| <= |Received(fetch, ends, stop)|
    ensures Received(fetch, ends, stop)[..|ItemsBefore(fetch, k + 1)|] == ItemsBefore(fetch, k + 1)
  {
    ItemsBeforePrefix(fetch, k + 1, PagesReceived(fetch, ends, stop));
  }

  /** No element of `a + b` satisfies `p` before position `|a| + j` when none of `a` and
      none of the first j of `b` does. */
  lemma NoneBefore<T>(a: seq<T>, b: seq<T>, j: nat, p: T -> bool)
    requires j <= |b|
    requires forall i :: 0 <= i < |a| ==> !p(a[i])
    requires forall i :: 0 <= i < j ==> !p(b[i])
    ensures forall i :: 0 <= i < |a| + j ==> !p((a + b)[i])
  {
    forall i | 0 <= i < |a| + j
      ensures !p((a + b)[i])
    {
      if i < |a| {
        assert (a + b)[i] == a[i];
      } else {
        assert (a + b)[i] == b[i - |a|];
      }
    }
  }

  /** A panic at item j of page k, after no earlier panic, is the first panic among the
      received items. */
  lemma PanicAt<Item>(fetch: Fetch<Item>, convert: Item -> Exec<Song>, stop: nat, k: nat, j: nat)
    requires Halts(fetch, PanicsOf(convert), stop)
    requires k <= LastPage(fetch, PanicsOf(convert), stop) && PageAt(fetch, k).Ok?
    requires j < |PageAt(fetch, k).value.items|
    requires Panics(convert, PageAt(fetch, k).value.items[j])
    requires forall i :: 0 <= i < |ItemsBefore(fetch, k)| ==> !Panics(convert, ItemsBefore(fetch, k)[i])
    requires forall i :: 0 <= i < j ==> !Panics(convert, PageAt(fetch, k).value.items[i])
    ensures var p := |ItemsBefore(fetch, k)| + j;
      && p < |Received(fetch, PanicsOf(convert), stop)|
      && Received(fetch, PanicsOf(convert), stop)[p] == PageAt(fetch, k).value.items[j]
      && FirstPanic(convert, Received(fetch, PanicsOf(convert), stop)) == Some(p)
  {
    var ends := PanicsOf(convert);
    assert forall i :: 0 <= i < |ItemsBefore(fetch, k)| ==> !ends(ItemsBefore(fetch, k)[i]);
    assert forall i :: 0 <= i < j ==> !ends(PageAt(fetch, k).value.items[i]);
    FirstEndAt(fetch, ends, stop, k, j);
  }

  /** The first received item that satisfies `ends` is found where the walk meets it: at
      item j of page k, when no earlier item satisfies it. */
  lemma FirstEndAt<Item>(fetch: Fetch<Item>, ends: Item -> bool, stop: nat, k: nat, j: nat)
    requires Halts(fetch, ends, stop)
    requires k <= LastPage(fetch, ends, stop) && PageAt(fetch, k).Ok?
    requires j < |PageAt(fetch, k).value.items| && ends(PageAt(fetch, k).value.items[j])
    requires forall i :: 0 <= i < |ItemsBefore(fetch, k)| ==> !ends(ItemsBefore(fetch, k)[i])
    requires forall i :: 0 <= i < j ==> !ends(PageAt(fetch, k).value.items[i])
    ensures var p := |ItemsBefore(fetch, k)| + j;
      && p < |Received(fetch, ends, stop)|
      && Received(fetch, ends, stop)[p] == PageAt(fetch, k).value.items[j]
      && FirstWhere(Received(fetch, ends, stop), ends) == Some(p)
  {
    ReceivedPrefix(fetch, ends, stop, k);
    var before := ItemsBefore(fetch, k);
    var page := PageAt(fetch, k).value.items;
    assert ItemsBefore(fetch, k + 1) == before + page;
    FirstInConcat(Received(fetch, ends, stop), before, page, ends, j);
  }

  /** In a sequence that starts with `a + b`, the first element of `b` that satisfies `p`,
      when no element of `a` does, is the first such element of the whole sequence. */
  lemma FirstInConcat<T>(s: seq<T>, a: seq<T>, b: seq<T>, p: T -> bool, j: nat)
    requires |a + b| <= |s| && s[..|a + b|] == a + b
    requires j < |b| && p(b[j])
    requires forall i :: 0 <= i < |a| ==> !p(a[i])
    requires forall i :: 0 <= i < j ==> !p(b[i])
    ensures s[|a| + j] == b[j]
    ensures FirstWhere(s, p) == Some(|a| + j)
  {
    NoneBefore(a, b, j, p);
    assert forall i :: 0 <= i <= |a| + j ==> s[i] == s[..|a + b|][i];
    assert (a + b)[|a| + j] == b[j];
    FirstWhereAt(s, p, |a| + j);
  }

  /** A panic at item j of page k, after no earlier panic, ends the walk. */
  lemma WalkPanics<Item>(fetch: Fetch<Item>, convert: Item -> Exec<Song>, stop: nat, k: nat, j: nat)
    requires Halts(fetch, PanicsOf(convert), stop)
    requires k <= LastPage(fetch, PanicsOf(convert), stop) && PageAt(fetch, k).Ok?
    requires j < |PageAt(fetch, k).value.items|
    requires Panics(convert, PageAt(fetch, k).value.items[j])
    requires forall i :: 0 <= i < |ItemsBefore(fetch, k)| ==> !Panics(convert, ItemsBefore(fetch, k)[i])
    requires forall i :: 0 <= i < j ==> !Panics(convert, PageAt(fetch, k).value.items[i])
    ensures Walk(fetch, convert, stop) == ConversionPanicked(convert(PageAt(fetch, k).value.items[j]).message)
  {
    PanicAt(fetch, convert, stop, k, j);
  }

  /** A source that always offers a next page still ends the walk at the first page whose
      first item panics in conversion, and the run ends in that panic. */
  lemma PanicEndsEndlessSource<Item>(fetch: Fetch<Item>, convert: Item -> Exec<Song>,
                                     task: Tasks, k: nat)
    requires forall j :: 0 <= j <= k ==> PageAt(fetch, j).Ok? && PageAt(fetch, j).value.next.Some?
    requires forall j :: 0 <= j < k ==> |PageAt(fetch, j).value.items| == 0
    requires |PageAt(fetch, k).value.items| > 0 && Panics(convert, PageAt(fetch, k).value.items[0])
    ensures Halts(fetch, PanicsOf(convert), k)
    ensures forall j :: 0 <= j < k ==> !Halts(fetch, PanicsOf(convert), j)
    ensures Outcome(fetch, convert, task, k) == Panicked(convert(PageAt(fetch, k).value.items[0]).message)
  {
    FirstWhereAt(PageAt(fetch, k).value.items, PanicsOf(convert), 0);
    EmptyBefore(fetch, k);
    WalkPanics(fetch, convert, k, k, 0);
  }

  /** Pages with no items contribute nothing to the items received before them. */
  lemma {:induction false} EmptyBefore<Item>(fetch: Fetch<Item>, k: nat)
    requires forall j :: 0 <= j < k ==> PageAt(fetch, j).Ok? && |PageAt(fetch, j).value.items| == 0
    ensures ItemsBefore(fetch, k) == []
  {
    if k > 0 {
      EmptyBefore(fetch, k - 1);
    }
  }

  /** With no conversion panic, a failed last request ends the walk with its error. */
  lemma WalkPageFails<Item>(fetch: Fetch<Item>, convert: Item -> Exec<Song>, stop: nat, k: nat)
    requires Halts(fetch, PanicsOf(convert), stop)
    requires k == LastPage(fetch, PanicsOf(convert), stop) && PageAt(fetch, k).Err?
    requires forall i :: 0 <= i < |ItemsBefore(fetch, k)| ==> !Panics(convert, ItemsBefore(fetch, k)[i])
    ensures Received(fetch, PanicsOf(convert), stop) == ItemsBefore(fetch, k)
    ensures Walk(fetch, convert, stop) == PageFailed(PageAt(fetch, k).error)
  {
    FirstWhereNone(Received(fetch, PanicsOf(convert), stop), PanicsOf(convert));
  }

  /** With no conversion panic and a delivered last page, the walk completes, having
      received every page up to the last. */
  lemma WalkCompletes<Item>(fetch: Fetch<Item>, convert: Item -> Exec<Song>, stop: nat, k: nat)
    requires Halts(fetch, PanicsOf(convert), stop)
    requires k == LastPage(fetch, PanicsOf(convert), stop) && PageAt(fetch, k).Ok?
    requires forall i :: 0 <= i < |ItemsBefore(fetch, k)| ==> !Panics(convert, ItemsBefore(fetch, k)[i])
    requires forall i :: 0 <= i < |PageAt(fetch, k).value.items| ==> !Panics(convert, PageAt(fetch, k).value.items[i])
    ensures Received(fetch, PanicsOf(convert), stop) == ItemsBefore(fetch, k) + PageAt(fetch, k).value.items
    ensures Walk(fetch, convert, stop) == Completed
  {
    var page := PageAt(fetch, k).value.items;
    NoneBefore(ItemsBefore(fetch, k), page, |page|, PanicsOf(convert));
    FirstWhereNone(Received(fetch, PanicsOf(convert), stop), PanicsOf(convert));
  }
  /** A delivered page with a successor and no panicking item is not the last page, and
      the walk goes on with its items received. */
  lemma WalkContinues<Item>(fetch: Fetch<Item>, convert: Item -> Exec<Song>, stop: nat, k: nat)
    requires Halts(fetch, PanicsOf(convert), stop)
    requires k <= LastPage(fetch, PanicsOf(convert), stop)
    requires PageAt(fetch, k).Ok? && PageAt(fetch, k).value.next.Some?
    requires forall i :: 0 <= i < |ItemsBefore(fetch, k)| ==> !Panics(convert, ItemsBefore(fetch, k)[i])
    requires forall i :: 0 <= i < |PageAt(fetch, k).value.items| ==> !Panics(convert, PageAt(fetch, k).value.items[i])
    ensures k < LastPage(fetch, PanicsOf(convert), stop)
    ensures ItemsBefore(fetch, k + 1) == ItemsBefore(fetch, k) + PageAt(fetch, k).value.items
    ensures var seen := ItemsBefore(fetch, k) + PageAt(fetch, k).value.items;
      forall i :: 0 <= i < |seen| ==> !Panics(convert, seen[i])
  {
    var page := PageAt(fetch, k).value;
    NoPanicNoEnd(page, convert);
    assert !Halts(fetch, PanicsOf(convert), k);
    NoneBefore(ItemsBefore(fetch, k), page.items, |page.items|, PanicsOf(convert));
  }

  /** The walk ends at the first page that fails, has no successor or holds an item whose
      conversion panics. */
  lemma EndsAtLastPage<Item>(fetch: Fetch<Item>, ends: Item -> bool, stop: nat, k: nat)
    requires Halts(fetch, ends, stop)
    requires k <= LastPage(fetch, ends, stop) && Halts(fetch, ends, k)
    ensures k == LastPage(fetch, ends, stop)
  {
  }

  /** Dispatching two runs of items one after the other. */
  lemma {:induction false} DispatchedAppend<Item>(convert: Item -> Exec<Song>, a: seq<Item>, b: seq<Item>)
    ensures Dispatched(convert, a + b) == Dispatched(convert, a) + Dispatched(convert, b)
    decreases |b|
  {
    if |b| > 0 {
      var b' := b[..|b| - 1];
      DispatchedAppend(convert, a, b');
      assert (a + b)[..|a + b| - 1] == a + b';
      assert (a + b)[|a + b| - 1] == b[|b| - 1];
    } else {
      assert a + b == a;
    }
  }

  /** The inner loop over one page: converts each item in order, collects the songs to
      dispatch, advances the fetch bar once per item, and stops at a conversion panic. */
  method ConvertPage<Item>(convert: Item -> Exec<Song>, items: seq<Item>)
    returns (songs: seq<Song>, counted: nat, panicAt: Option<nat>)
    ensures panicAt.None? ==> songs == Dispatched(convert, items) && counted == |items|
    ensures panicAt.None? ==> forall i :: 0 <= i < |items| ==> !Panics(convert, items[i])
    ensures panicAt.Some? ==> panicAt.value < |items| && Panics(convert, items[panicAt.value])
    ensures panicAt.Some? ==> forall i :: 0 <= i < panicAt.value ==> !Panics(convert, items[i])
    ensures panicAt.Some? ==> counted == panicAt.value
  {
    songs, counted := [], 0;
    var j := 0;
    while j < |items|
      invariant 0 <= j <= |items|
      invariant songs == Dispatched(convert, items[..j])
      invariant forall i :: 0 <= i < j ==> !Panics(convert, items[i])
      invariant counted == j
    {
      var c := convert(items[j]);
      if c.Panicked? {
        panicAt := Some(j);
        return;
      }
      assert items[..j + 1][..j] == items[..j];
      if c.IsOk() {
        songs := songs + [c.result.value];
      }
      counted := counted + 1;
      j := j + 1;
    }
    assert items[..j] == items;
    panicAt := None;
  }

  /** The page walk of `process_items`: requests pages in order, converts each item,
      dispatches the converted songs, and stops at the last page, a failed request or the
      first conversion panic. */
  method WalkPages<Item>(fetch: Fetch<Item>, convert: Item -> Exec<Song>, ghost stop: nat)
    returns (end: WalkEnd, requests: seq<(nat, nat)>, handles: seq<Song>, fetched: nat)
    requires Halts(fetch, PanicsOf(convert), stop)
    ensures end == Walk(fetch, convert, stop)
    ensures requests == Requests(|requests|) && 1 <= |requests| <= LastPage(fetch, PanicsOf(convert), stop) + 1
    ensures !end.ConversionPanicked? ==> requests == Requests(LastPage(fetch, PanicsOf(convert), stop) + 1)
    ensures !end.ConversionPanicked? ==> handles == Dispatched(convert, Received(fetch, PanicsOf(convert), stop))
    ensures !end.ConversionPanicked? ==> fetched == |Received(fetch, PanicsOf(convert), stop)|
  {
    requests, handles, fetched := [], [], 0;
    ghost var seen: seq<Item> := [];
    ghost var n := LastPage(fetch, PanicsOf(convert), stop);
    var k: nat := 0;
    var offset: nat := 0;
    while true
      invariant k <= n
      invariant offset == Offset(k)
      invariant requests == Requests(k)
      invariant seen == ItemsBefore(fetch, k)
      invariant forall i :: 0 <= i < |seen| ==> !Panics(convert, seen[i])
      invariant handles == Dispatched(convert, seen)
      invariant fetched == |seen|
      decreases n - k
    {
      var page := fetch(Limit, offset);
      RequestsNext(k);
      requests := requests + [(Limit, offset)];
      if page.Err? {
        EndsAtLastPage(fetch, PanicsOf(convert), stop, k);
        WalkPageFails(fetch, convert, stop, k);
        end := PageFailed(page.error);
        return;
      }
      var items := page.value.items;
      assert PageAt(fetch, k) == page;
      var songs, counted, panicAt := ConvertPage(convert, items);
      if panicAt.Some? {
        WalkPanics(fetch, convert, stop, k, panicAt.value);
        end := ConversionPanicked(convert(items[panicAt.value]).message);
        return;
      }
      DispatchedAppend(convert, seen, items);
      if page.value.next.None? {
        EndsAtLastPage(fetch, PanicsOf(convert), stop, k);
        WalkCompletes(fetch, convert, stop, k);
        handles := handles + songs;
        fetched := fetched + counted;
        end := Completed;
        return;
      }
      WalkContinues(fetch, convert, stop, k);
      handles := handles + songs;
      fetched := fetched + counted;
      seen := seen + items;
      k := k + 1;
      offset := offset + Limit;
    }
  }

  /** `process_items`: the page walk, then the drain of the spawned tasks. */
  method ProcessItems<Item>(fetch: Fetch<Item>, convert: Item -> Exec<Song>,
                            task: Tasks, ghost stop: nat)
    returns (r: Exec<()>, requests: seq<(nat, nat)>, handles: seq<Song>, fetched: nat,
             joined: nat, logged: seq<Error>)
    requires Halts(fetch, PanicsOf(convert), stop)
    ensures r == Outcome(fetch, convert, task, stop)
    ensures requests == Requests(|requests|) && 1 <= |requests| <= LastPage(fetch, PanicsOf(convert), stop) + 1
    ensures !r.Panicked? ==> requests == Requests(LastPage(fetch, PanicsOf(convert), stop) + 1)
    ensures !r.Panicked? ==> handles == Dispatched(convert, Received(fetch, PanicsOf(convert), stop))
    ensures !r.Panicked? ==> fetched == |Received(fetch, PanicsOf(convert), stop)|
    ensures r.Panicked? || PageAt(fetch, LastPage(fetch, PanicsOf(convert), stop)).Err? ==> joined == 0 && logged == []
    ensures r.IsOk() ==> joined == |handles| && logged == TaskErrors(handles, task)
    ensures r.IsErr() && PageAt(fetch, LastPage(fetch, PanicsOf(convert), stop)).Ok? ==>
      && 0 < joined <= |handles|
      && task(joined - 1, handles[joined - 1]).JoinFailed?
      && logged == TaskErrors(handles[..joined - 1], task)
  {
    var end;
    end, requests, handles, fetched := WalkPages(fetch, convert, stop);
    WalkNoPanic(fetch, convert, stop);
    joined, logged := 0, [];
    match end
    case ConversionPanicked(m) =>
      r := Panicked(m);
    case PageFailed(e) =>
      r := Returned(Err([FetchFailed] + e));
    case Completed =>
      var drained;
      drained, joined, logged := DrainTasks(handles, task);
      r := Returned(drained);
  }
  /** The drain: awaits the tasks in spawn order, logging each task's own error, and stops
      at the first task that cannot be joined. */
  method DrainTasks(handles: seq<Song>, task: Tasks)
    returns (r: Result<()>, joined: nat, logged: seq<Error>)
    ensures r == Drain(handles, task)
    ensures r.Ok? ==> joined == |handles| && logged == TaskErrors(handles, task)
    ensures r.Err? ==>
      && 0 < joined <= |handles|
      && task(joined - 1, handles[joined - 1]).JoinFailed?
      && logged == TaskErrors(handles[..joined - 1], task)
  {
    joined, logged := 0, [];
    while joined < |handles|
      invariant joined <= |handles|
      invariant forall i :: 0 <= i < joined ==> !task(i, handles[i]).JoinFailed?
      invariant logged == TaskErrors(handles[..joined], task)
    {
      var t := task(joined, handles[joined]);
      assert handles[..joined + 1][..joined] == handles[..joined];
      if t.JoinFailed? {
        FirstWhereAt(Results(handles, task), NotJoined, joined);
        joined := joined + 1;
        r := Err(t.error);
        return;
      }
      if t.result.Err? {
        logged := logged + [t.result.error];
      }
      joined := joined + 1;
    }
    assert handles[..joined] == handles;
    FirstWhereNone(Results(handles, task), NotJoined);
    r := Ok(());
  }

  /** The task the library spawns for a song: `download_image`, which never panics, so
      awaiting it always yields the download's own result. */
  function DownloadTask(send: Download.Send,
                        store: Download.Store): Tasks
  {
    (k: nat, s: Song) => Finished(Download.DownloadImage(s, send, store).result)
  }

  /** Failed downloads do not fail the run: once the pages are walked without a panic or
      a page error, the run returns `Ok` whatever the downloads did. */
  lemma DownloadErrorsAreOnlyLogged<Item>(fetch: Fetch<Item>, convert: Item -> Exec<Song>,
                                          send: Download.Send,
                                          store: Download.Store, stop: nat)
    requires Halts(fetch, PanicsOf(convert), stop)
    requires forall i :: 0 <= i < |Received(fetch, PanicsOf(convert), stop)| ==> !Panics(convert, Received(fetch, PanicsOf(convert), stop)[i])
    requires PageAt(fetch, LastPage(fetch, PanicsOf(convert), stop)).Ok?
    ensures Outcome(fetch, convert, DownloadTask(send, store), stop) == Returned(Ok(()))
  {
    var task := DownloadTask(send, store);
    var handles := Dispatched(convert, Received(fetch, PanicsOf(convert), stop));
    WalkNoPanic(fetch, convert, stop);
    FirstWhereNone(Results(handles, task), NotJoined);
  }

  /** Thumbnails written by the download tasks, in spawn order. */
  function Written(handles: seq<Song>, send: Download.Send,
                   store: Download.Store): seq<(string, seq<Download.Utf8.byte>)>
  {
    if |handles| == 0 then []
    else Written(handles[..|handles| - 1], send, store)
         + Download.DownloadImage(handles[|handles| - 1], send, store).written
  }

  function ImagelessCount(handles: seq<Song>): nat
  {
    if |handles| == 0 then 0
    else ImagelessCount(handles[..|handles| - 1]) + (if handles[|handles| - 1].images == [] then 1 else 0)
  }

  /** Every task is accounted for by the drain: each one either logged an error, wrote
      exactly one thumbnail, or had no image to fetch. With K failing downloads among N
      songs that have images, N - K writes happen (fewer
      distinct files when a song repeats). */
  lemma {:induction false} EveryTaskAccountedFor(handles: seq<Song>, send: Download.Send,
                                                 store: Download.Store)
    ensures |TaskErrors(handles, DownloadTask(send, store))| + |Written(handles, send, store)|
            + ImagelessCount(handles) == |handles|
  {
    if |handles| > 0 {
      var init := handles[..|handles| - 1];
      var last := handles[|handles| - 1];
      EveryTaskAccountedFor(init, send, store);
      var rep := Download.DownloadImage(last, send, store);
      assert DownloadTask(send, store)(|init|, last) == Finished(rep.result);
    }
  }
}

=== FILE: songs.dfy ===
/** The normalised track record and the two converters that build it from the streaming
    service's records (spotify-api/src/lib.rs, `Song`, `TryFrom<PlaylistItem>`,
    `From<SavedTrack>`).

    Only the fields the converters read are kept from the service's records. A track
    without an id (a local file) makes both converters panic: they call `unwrap` on it.
 */
module Songs {
  import opened Outcomes

  /** Equality is structural over all four fields, as the derived `Eq`/`Hash` are. */
  datatype Song = Song(id: string, name: string, artists: seq<string>, images: seq<string>)

  datatype Artist = Artist(name: string)
  datatype Image = Image(url: string)
  datatype Album = Album(images: seq<Image>)
  datatype FullTrack = FullTrack(id: Option<string>, name: string, artists: seq<Artist>, album: Album)

  /** What a playlist entry can hold: a track, or an episode (anything that is not a track). */
  datatype PlayableItem = Track(track: FullTrack) | Episode(title: string)

  /** `track` is `None` for an entry the service no longer resolves. */
  datatype PlaylistItem = PlaylistItem(track: Option<PlayableItem>)

  datatype SavedTrack = SavedTrack(track: FullTrack)

  const LocalSongPanic: string :=
    "called `Result::unwrap()` on an `Err` value: Local songs are not handled yet."
  const NotATrack: string := "Could not convert"

  function ArtistNames(artists: seq<Artist>): (names: seq<string>)
    ensures |names| == |artists|
    ensures forall i :: 0 <= i < |artists| ==> names[i] == artists[i].name
  {
    if |artists| == 0 then [] else [artists[0].name] + ArtistNames(artists[1..])
  }

  function ImageUrls(images: seq<Image>): (urls: seq<string>)
    ensures |urls| == |images|
    ensures forall i :: 0 <= i < |images| ==> urls[i] == images[i].url
  {
    if |images| == 0 then [] else [images[0].url] + ImageUrls(images[1..])
  }

  /** The Song for a track that has an id. */
  function SongOf(t: FullTrack): Song
    requires t.id.Some?
  {
    Song(t.id.value, t.name, ArtistNames(t.artists), ImageUrls(t.album.images))
  }

  /** A track becomes a Song, or panics when it has no id. */
  function TrackToSong(t: FullTrack): (r: Exec<Song>)
    ensures r.Panicked? <==> t.id.None?
    ensures !r.IsErr()
    ensures r.IsOk() ==> r.result.value == SongOf(t)
  {
    match t.id
    case None => Panicked(LocalSongPanic)
    case Some(_) => Returned(Ok(SongOf(t)))
  }

  /** `Song::try_from(PlaylistItem)`. */
  function FromPlaylistItem(item: PlaylistItem): (r: Exec<Song>)
    ensures r.IsErr() <==> !(item.track.Some? && item.track.value.Track?)
    ensures r.Panicked? <==> item.track.Some? && item.track.value.Track? && item.track.value.track.id.None?
    ensures r.IsOk() ==> r.result.value == SongOf(item.track.value.track)
  {
    match item.track
    case Some(Track(t)) => TrackToSong(t)
    case _ => Returned(Fail(NotATrack))
  }

  /** `Song::from(SavedTrack)`, wrapped in `Ok` by the liked-songs caller. */
  function FromSavedTrack(item: SavedTrack): (r: Exec<Song>)
    ensures !r.IsErr()
    ensures r.Panicked? <==> item.track.id.None?
    ensures r.IsOk() ==> r.result.value == SongOf(item.track)
  {
    TrackToSong(item.track)
  }

  /** Both converters agree on a track: a playlist entry holding track `t` converts
      exactly as the saved track `t` does. */
  lemma ConvertersAgree(t: FullTrack)
    ensures FromPlaylistItem(PlaylistItem(Some(Track(t)))) == FromSavedTrack(SavedTrack(t))
  {
  }
}

=== FILE: utf8.dfy ===
/** UTF-8 encoding of Unicode scalar values (Rust's `str::as_bytes`).

    A Rust `String` is stored as its UTF-8 bytes; the thumbnail path encodes those bytes.
    Here a name is a Dafny `string` (a sequence of Unicode scalar values), `Encode` produces
    its bytes, and `Decode` is the strict decoder that undoes it, which makes the encoding
    injective.
 */
module Utf8 {
  import opened Outcomes

  type byte = x: int | 0 <= x < 256

  predicate IsContinuation(b: byte) { 0x80 <= b < 0xC0 }

  /** The six payload bits of a continuation byte. */
  function Low(b: byte): int { b as int - 0x80 }

  /** The bytes of one scalar value: 1 to 4 bytes depending on its size. */
  function EncodeChar(c: char): (bs: seq<byte>)
    ensures 1 <= |bs| <= 4
    ensures |bs| == 1 <==> (c as int) < 0x80
    ensures |bs| == 1 ==> bs[0] == c as int
    ensures forall i :: 1 <= i < |bs| ==> IsContinuation(bs[i])
  {
    var cp := c as int;
    var q1 := cp / 64;
    var q2 := q1 / 64;
    if cp < 0x80 then
      [cp]
    else if cp < 0x800 then
      [0xC0 + q1, 0x80 + cp % 64]
    else if cp < 0x10000 then
      [0xE0 + q2, 0x80 + q1 % 64, 0x80 + cp % 64]
    else
      [0xF0 + q2 / 64, 0x80 + q2 % 64, 0x80 + q1 % 64, 0x80 + cp % 64]
  }

  function Encode(s: string): (bs: seq<byte>)
    ensures |s| <= |bs| <= 4 * |s|
  {
    if |s| == 0 then [] else EncodeChar(s[0]) + Encode(s[1..])
  }

  /** A code point that Dafny's `char` can hold (a Unicode scalar value). */
  predicate IsScalar(cp: int) { 0 <= cp < 0xD800 || 0xE000 <= cp < 0x11_0000 }

  /** Decodes the scalar value at the head of `bs`, with the number of bytes it used.
      Overlong forms, surrogates and values above U+10FFFF are rejected. */
  function DecodeChar(bs: seq<byte>): (r: Option<(char, nat)>)
    ensures r.Some? ==> 1 <= r.value.1 <= |bs| && r.value.1 <= 4
  {
    if |bs| == 0 then None
    else if bs[0] < 0x80 then Some((bs[0] as char, 1))
    else if bs[0] < 0xC2 then None
    else if bs[0] < 0xE0 then
      if |bs| < 2 || !IsContinuation(bs[1]) then None
      else Some((((bs[0] as int - 0xC0) * 64 + Low(bs[1])) as char, 2))
    else if bs[0] < 0xF0 then
      if |bs| < 3 || !IsContinuation(bs[1]) || !IsContinuation(bs[2]) then None
      else
        var cp := ((bs[0] as int - 0xE0) * 64 + Low(bs[1])) * 64 + Low(bs[2]);
        if cp < 0x800 || !IsScalar(cp) then None else Some((cp as char, 3))
    else
      if |bs| < 4 || !IsContinuation(bs[1]) || !IsContinuation(bs[2]) || !IsContinuation(bs[3]) then None
      else
        var cp := (((bs[0] as int - 0xF0) * 64 + Low(bs[1])) * 64 + Low(bs[2])) * 64 + Low(bs[3]);
        if cp < 0x10000 || !IsScalar(cp) then None else Some((cp as char, 4))
  }

  function Decode(bs: seq<byte>): Option<string>
    decreases |bs|
  {
    if |bs| == 0 then Some([])
    else match DecodeChar(bs)
      case None => None
      case Some((c, n)) =>
        match Decode(bs[n..])
        case None => None
        case Some(rest) => Some([c] + rest)
  }

  /** Decoding the bytes of one scalar value, followed by anything, gives that value back. */
  lemma DecodeEncodeChar(c: char, rest: seq<byte>)
    ensures DecodeChar(EncodeChar(c) + rest) == Some((c, |EncodeChar(c)|))
  {
    var cp := c as int;
    var bs := EncodeChar(c) + rest;
    var q1 := cp / 64;
    var q2 := q1 / 64;
    assert cp == q1 * 64 + cp % 64;
    assert q1 == q2 * 64 + q1 % 64;
    if cp < 0x80 {
    } else if cp < 0x800 {
      assert bs[0] == 0xC0 + q1 && bs[1] == 0x80 + cp % 64;
      assert 2 <= q1 < 32;
    } else if cp < 0x10000 {
      assert bs[0] == 0xE0 + q2 && bs[1] == 0x80 + q1 % 64 && bs[2] == 0x80 + cp % 64;
      assert q2 < 16;
      assert (q2 * 64 + q1 % 64) * 64 + cp % 64 == cp;
    } else {
      var q3 := q2 / 64;
      assert q2 == q3 * 64 + q2 % 64;
      assert q1 < 0x4400 && q2 < 0x110 && q3 < 5;
      assert bs[0] == 0xF0 + q3 && bs[1] == 0x80 + q2 % 64 && bs[2] == 0x80 + q1 % 64 && bs[3] == 0x80 + cp % 64;
      assert ((q3 * 64 + q2 % 64) * 64 + q1 % 64) * 64 + cp % 64 == cp;
    }
  }

  /** Round trip: the strict decoder recovers every string from its UTF-8 bytes. */
  lemma {:induction false} DecodeEncode(s: string)
    ensures Decode(Encode(s)) == Some(s)
  {
    if |s| > 0 {
      var head := EncodeChar(s[0]);
      var rest := Encode(s[1..]);
      assert Encode(s) == head + rest;
      DecodeEncodeChar(s[0], rest);
      assert (head + rest)[|head|..] == rest;
      DecodeEncode(s[1..]);
      assert [s[0]] + s[1..] == s;
    }
  }

  /** Two names have the same UTF-8 bytes exactly when they are the same name. */
  lemma EncodeInjective(s: string, t: string)
    ensures Encode(s) == Encode(t) <==> s == t
  {
    DecodeEncode(s);
    DecodeEncode(t);
  }
}
